=== FILE: README.md ===
# fastapi-blog: a Dafny model of the auth and post core

This project models the decision and state logic of a small blog backend:
- user registration and login with bcrypt-hashed passwords;
- access and refresh JSON Web Tokens, and the `get_current_user` dependency that guards every protected endpoint;
- posts with text, uploaded media, a link and a scraped link preview;
- a like toggle that keeps a per-post `like_count` beside a `like_users` table.

The database is one immutable `Db` record, in `schema.dfy`:
- the `users`, `posts` and `like_users` tables as sequences, in insertion order, which also serves as the order a scan returns them in;
- the two BIGSERIAL sequences as counters.

Text columns follow PostgreSQL's rules. A NUL character is refused, in a query parameter as in a stored value. A VARCHAR(n) column stores a value of at most n characters as is, cuts a longer one to n characters when everything beyond is spaces, and refuses it otherwise.

Every repository call is an atomic transition `Db -> Result<...>`. A failure leaves the database as it was, as the source's transactions do.

Handlers return `Result<_, HttpError>`. An `HttpError` carries the status and the detail text the source raises. An exception nothing catches becomes a 500.

The libraries are stand-ins, in `crypto.dfy`:
- passlib refuses, with an exception, a password whose UTF-8 encoding is longer than 4096 bytes, or one containing a NUL, both when hashing and when verifying;
- a bcrypt hash is a symbolic value over the first 72 bytes of the UTF-8 encoded password, so it accepts exactly the accepted passwords that agree with the original on those bytes;
- a JWT is either signed under a key or garbage, and decodes exactly under its signing key.

The clock, the bcrypt salt, the uuid4 values and the outcomes of the two preview fetches are parameters.

The central property is in `consistency.dfy`. `Consistency.Valid` holds when all of the following do:
- ids are unique and below their sequence;
- every foreign key resolves;
- usernames are unique;
- no like pair occurs twice;
- every post's `like_count` equals its number of like rows.

The table definitions enforce only the primary keys and foreign keys. Usernames and like pairs have no unique constraint, so the rest is kept by the application's check-then-write logic. The model proves that each writing operation preserves `Valid`:
- registration;
- post creation;
- the like toggle;
- post deletion with its cascade.

It also proves that the two checks are what keep it: without them, the raw repository calls break the invariant.

Files:
- `utf8.dfy`: UTF-8 encoding of strings, as bcrypt receives a password.
- `prelude.dfy`: Option and Result, and Python string helpers such as `startswith`, `str(int)` and `", ".join`.
- `http.dfy`: the HTTP errors.
- `crypto.dfy`: the bcrypt and JWT stand-ins.
- `schema.dfy`: the tables.
- `ledger.dfy`: counting and deleting like rows.
- `user_repo.dfy` and `post_repo.dfy`: the repositories.
- `auth_services.dfy`, `auth_dependency.dfy` and `auth_endpoints.dfy`: authentication.
- `post_services.dfy`, `post_dependencies.dfy` and `post_endpoints.dfy`: posts.
- `consistency.dfy`: the invariant.

## Model

| member | source | states |
|---|---|---|
| Prelude.Join | app/api/posts/endpoints.py:97 | `", ".join`: the empty list gives "", a single path is stored as is |
| Prelude.SplitJoin | app/api/posts/endpoints.py:97 | splitting the stored `files` column at ", " gives back exactly the saved paths when none contains a comma |
| Schema.Varchar | app/db/migrations/create_table.py:12-19 | a VARCHAR(n) column refuses a NUL; it stores a value of at most n characters as is, cuts a longer one to n when everything beyond is spaces, and refuses it otherwise |
| Schema.StoreColumn | app/db/migrations/create_table.py:17-19 | a nullable VARCHAR column stores NULL as NULL and otherwise behaves as `Varchar` |
| Utf8.DecodeEncodeChar | app/api/authentication/services.py:27 | each character's one to four UTF-8 bytes decode back to its code point |
| Utf8.EncodeInjective | app/api/authentication/services.py:27 | two different strings never have the same UTF-8 encoding |
| Utf8.EncodeAppend | app/api/authentication/services.py:27 | the encoding of a concatenation is the concatenation of the encodings |
| Crypto.BcryptKey | app/api/authentication/services.py:27 | bcrypt hashes the UTF-8 bytes of the password, cut to the first 72 |
| Crypto.Hash | app/api/authentication/services.py:27 | passlib refuses exactly the passwords over 4096 UTF-8 bytes or containing a NUL; otherwise the stored hash embeds its salt and verifies exactly the accepted passwords whose first 72 UTF-8 bytes equal the original's |
| Crypto.SizeCountsBytes | app/api/authentication/services.py:27-33 | the 4096 limit counts UTF-8 bytes: a password of more than 2048 two-byte characters is refused by both hashing and verifying, even within 4096 characters |
| Crypto.ShortPasswordsVerifyExactly | app/api/authentication/services.py:27-33 | for NUL-free passwords of at most 72 bytes, a hash verifies another NUL-free password iff the two are equal |
| Crypto.TailBeyondKeyIgnored | app/api/authentication/services.py:27-33 | two passwords sharing their first 72 bytes verify against each other's hash whatever follows, as long as passlib accepts both; a tail that takes the other past 4096 UTF-8 bytes or adds a NUL makes verification raise instead |
| Crypto.Encode | app/api/authentication/services.py:49-53 | a token decodes to its claims under its signing key and fails under every other key |
| AuthServices.Expiry | app/api/authentication/services.py:42-47 | `exp` is now plus the delta when the delta is truthy; otherwise (None or zero) now plus the default minutes times 60 |
| AuthServices.CreateAccessToken | app/api/authentication/services.py:36-54 | decoding with the access secret gives exactly `{exp, username}`; with distinct secrets the refresh decoder refuses it |
| AuthServices.CreateRefreshToken | app/api/authentication/services.py:57-75 | decoding with the refresh secret gives exactly `{exp, username}` with the refresh lifetime; with distinct secrets the access decoder refuses it |
| AuthServices.RefreshTokenPassesAsAccessAsWritten | app/api/authentication/services.py:49-53 | as written, both secrets render to the same mask, so a refresh token, or any token signed with the public mask, decodes as an access token |
| AuthServices.KeysSeparateTokens | app/api/authentication/services.py:78-93 | keyed by the secret values, a refresh-signed token passes the access decoder iff the secrets are equal, and a token signed with any other key is refused |
| AuthServices.VerifyPassword | app/api/authentication/services.py:31-33 | raises exactly for the passwords passlib refuses; otherwise holds iff re-hashing the plaintext under the stored salt reproduces the stored hash |
| AuthServices.RegistrationUser | app/api/authentication/services.py:22-28 | a password passlib refuses fails before any insert; otherwise the insert fails iff the username column refuses the name, and on success the row holds the name as stored and the hash, which accepts exactly the accepted passwords agreeing with the registered one on its first 72 UTF-8 bytes, and for NUL-free passwords within 72 bytes only the registered one |
| AuthDependency.GetCurrentUser | app/api/dependencies/auth.py:18-55 | the five-way ladder: no token gives "Access denied"; a decode failure, an empty username or an unknown username gives "Could not validate credentials"; now >= exp gives "Access expired"; a missing exp gives 500, and so does a username with a NUL, which the query refuses; otherwise the stored user named in the token |
| AuthDependency.IssuedTokenLifetime | app/api/dependencies/auth.py:33-49 | a token issued for a stored NUL-free user is accepted exactly while now < exp and names that user; from exp on it is "Access expired" |
| AuthDependency.RefreshTokenRefused | app/api/dependencies/auth.py:30-45 | with distinct secrets, a refresh token presented as bearer is refused with 401 |
| AuthEndpoints.LogIn | app/api/authentication/endpoints.py:62-95 | for a NUL-free name and a password passlib accepts, an unknown user and a wrong password give the identical 401; a name with a NUL, or a refused password against a stored user, gives 500; success returns tokens that decode to the stored username |
| AuthEndpoints.LoginStatusRevealsUser | app/api/authentication/endpoints.py:62-95 | with a password passlib refuses, a stored name gives 500 and an unknown one the 401, so the status tells whether the name is registered |
| AuthEndpoints.HandlerLoginForTokens | app/api/authentication/endpoints.py:21-54 | succeeds iff the name is NUL-free, a user has it, passlib accepts the password and it verifies against the stored hash, with both tokens naming that user; an unknown user is always the 401, and the only 500s are a NUL in the name or a refused password for a stored user |
| AuthEndpoints.HandlerLogin | app/api/authentication/endpoints.py:62-95 | the JSON login gives the same outcome as the form login for the same credentials |
| AuthEndpoints.HandlerRegistration | app/api/authentication/endpoints.py:103-117 | corrected: a name with a NUL gives 500; a name whose stored form is taken gives 409 and writes nothing; a password passlib refuses or a name the column refuses gives 500; otherwise exactly one row is appended, with the next id, the stored name and the hash, no earlier user has that name, and the name now resolves to it |
| AuthEndpoints.HandlerRegistrationAsWritten | app/api/authentication/endpoints.py:103-117 | as written, the 409 check looks up the name as sent: a NUL gives 500, a sent name already stored gives 409, and otherwise the outcome is exactly `registration_user`'s |
| AuthEndpoints.RegisterThenLogIn | app/api/authentication/endpoints.py:62-117 | after registering, logging in with the stored name and the same password yields tokens for that name; another password passlib accepts succeeds iff its first 72 UTF-8 bytes are the registered one's (for NUL-free passwords within 72 bytes, iff it is the same) and is otherwise refused like an unknown user; a refused one gives 500 |
| UserRepo.GetByUsername | app/db/repositories/user.py:8-13 | the query fails exactly for a name containing a NUL; otherwise it is `Lookup` |
| UserRepo.Lookup | app/db/repositories/user.py:10-13 | a result exists iff some row has exactly that username, and it is that row's id, name and hash |
| UserRepo.StoredUsername | app/db/migrations/create_table.py:12 | the name the column stores: unchanged within 100 characters, the column's cut form when its excess is spaces, NUL-free iff the request is |
| UserRepo.GetById | app/db/repositories/user.py:15-20 | a result exists iff some row has that id, and it is that row's id and name |
| UserRepo.Add | app/db/repositories/user.py:22-28 | fails iff the VARCHAR(100) column refuses the name; otherwise existing rows stay as they are, one row is appended under the next id with the name as the column stores it, and the returned name resolves |
| PostRepo.GetAll | app/db/repositories/post.py:11-26 | fails iff the limit or the offset page*limit is negative; otherwise the rows at positions [page*limit, page*limit+limit) that exist, in table order |
| PostRepo.PagesTile | app/db/repositories/post.py:13-15 | pages 0..n-1 with a fixed limit concatenate to exactly the first n*limit rows: no gaps, no repeats |
| PostRepo.GetById | app/db/repositories/post.py:28-44 | the stored post iff the id exists, EntityDoesNotExist otherwise |
| PostRepo.GetUsersLikePost | app/db/repositories/post.py:46-50 | the user id iff a like row for the pair exists, else None |
| PostRepo.Add | app/db/repositories/post.py:52-66 | fails iff a column refuses its value (a NUL, or an excess that is not all spaces), the preview holds a NUL, or the author is not a user; otherwise the post is appended under the next id with the values as stored and like_count 0, and nothing else changes |
| PostRepo.AddAsWritten | app/db/repositories/post.py:54-66 | as written, the insert is also rolled back iff the text, the files, the link or the preview is absent, since the row is rebuilt as a `Post` that requires them |
| PostRepo.PostWithoutLinkRefusedAsWritten | app/db/repositories/post.py:54-66 | a text-only post, accepted by the insert, is refused as written |
| PostRepo.AddLike | app/db/repositories/post.py:68-75 | succeeds iff user and post exist; the ledger gains exactly one copy of the pair, only that post's counter rises by one, and the new counter is returned |
| PostRepo.RemoveLike | app/db/repositories/post.py:77-84 | succeeds iff the post exists; every copy of the pair is gone and no other pair's multiplicity changes; that post's counter falls by one whether or not a row was deleted |
| PostRepo.Delete | app/db/repositories/post.py:86-89 | only that post's row goes, and with it exactly the like rows that reference it |
| PostServices.GetAllPosts | app/api/posts/services.py:17-24 | page 0 and limit 5 by default, and exactly the repository's page |
| PostServices.LikePost | app/api/posts/services.py:44-53 | a present pair with a truthy user id is removed, otherwise it is added |
| PostServices.CheckUserCanModifyComment | app/api/posts/services.py:56-58 | true iff the post's author is the user |
| PostServices.MediaPath | app/api/posts/services.py:69-72 | an upload whose content type starts with "image" is stored as app/media/image/{user_id}_{uid}.png, anything else as app/media/video/{user_id}_{uid}.mp4 |
| PostServices.SaveFiles | app/api/posts/services.py:61-75 | exactly one path per file, in input order, each named from the user id and its uuid, and one scheduled write per file |
| PostServices.DistinctUidsDistinctPaths | app/api/posts/services.py:69-72 | two uploads with different uuids never share a path |
| PostServices.MediaPathHasNoComma | app/api/posts/services.py:70-72 | the generated paths contain no comma, so the ", "-joined column is unambiguous |
| PostServices.ParseContent | app/api/posts/services.py:137-149 | the description comes from og:description, else from the description tag, else "Not found"; the image comes from og:image, else "Not found"; a tag without content gives None |
| PostServices.GetContentByLink | app/api/posts/services.py:91-134 | an empty or non-http link gives `{"message": "null"}`; a non-200 response gives None; a non-http image gives file "Not found"; a preview image is saved only as app/media/image/{id}_{uid}.png |
| PostServices.NoFetchWithoutHttpLink | app/api/posts/services.py:97-98 | without an http link the outcome does not depend on the network |
| PostDependencies.GetPostByIdFromPath | app/api/dependencies/posts.py:13-25 | an id below 1 gives 422, a missing post 404, an existing post comes back unchanged |
| PostDependencies.CheckPostModificationPermissions | app/api/dependencies/posts.py:28-37 | passes iff the user is the author, otherwise 403 |
| PostEndpoints.HandlerGetAllPosts | app/api/posts/endpoints.py:31-41 | the service's page, with at most 5 rows from the front of the table by default |
| PostEndpoints.HandlerGetPost | app/api/posts/endpoints.py:50-57 | the stored post iff the id is at least 1 and exists; a missing id gives 404 |
| PostEndpoints.HandlerCreatePost | app/api/posts/endpoints.py:66-103 | authentication first; 400 exactly when text and link are falsy and the file list is empty; a missing file list fails; the stored post has the current user as author, like_count 0, the text and link as their columns store them and the stored form of the ", "-joined saved paths; a consistent database stays consistent |
| PostEndpoints.SaveAndStore | app/api/posts/endpoints.py:82-103 | the stored post names the current user as author, has like_count 0, the given text and link as their columns store them, and its files column is the stored form of the ", "-joined path of every upload in order; it is appended under the next id and keeps a consistent database consistent |
| PostEndpoints.HandlerAddLike | app/api/posts/endpoints.py:106-123 | 401 before anything else, then 422 or 404 for the path; then the toggle of (current user, post) and the new counter |
| PostEndpoints.HandlerAddLikeKeepsValid | app/api/posts/endpoints.py:113-123 | through the endpoint a like keeps the database consistent, and the counter it answers with is the number of distinct users liking the post |
| PostEndpoints.HandlerDeletePost | app/api/posts/endpoints.py:126-138 | a missing post is 404 before authentication, then 401, then 422 for an id below 1, then 403 for a non-author; success deletes exactly that post |
| PostEndpoints.HandlerDeletePostKeepsValid | app/api/posts/endpoints.py:133-138 | deleting through the endpoint keeps the database consistent |
| Ledger.Keep | app/db/repositories/post.py:80-81 | a DELETE keeps exactly the rows it does not match |
| Ledger.KeepConcat | app/db/repositories/post.py:80-81 | the kept rows stay in table order: keeping from two consecutive stretches is keeping from each in turn |
| Ledger.DistinctIffAtMostOnce | app/db/migrations/create_table.py:25-29 | the ledger is a set of pairs iff every pair occurs at most once |
| Ledger.CountIsNumberOfLikers | app/db/migrations/create_table.py:25-29 | in a ledger without duplicates a post's row count is its number of distinct likers |
| Ledger.CountWithoutPair | app/db/repositories/post.py:80-81 | deleting a pair lowers its post's count by exactly the copies of that pair |
| Ledger.KeepMultiset | app/db/repositories/post.py:80-81 | a DELETE removes every copy of the matched rows and no copy of any other |
| Ledger.CountWithoutPost | app/db/migrations/create_table.py:29 | after a post's cascade no like row names it |
| Consistency.EmptyDbValid | app/db/migrations/create_table.py:10-30 | freshly created tables are consistent |
| Consistency.AddLikeKeepsValid | app/db/repositories/post.py:68-75 | inserting a pair not yet liked keeps ids, references, uniqueness and counters consistent |
| Consistency.RemoveLikeKeepsValid | app/db/repositories/post.py:77-84 | deleting a liked pair keeps the database consistent |
| Consistency.LikePostToggles | app/api/posts/services.py:50-53 | in a consistent database the toggle succeeds iff user and post exist, keeps consistency, flips the pair's membership, and moves the counter by one in the matching direction |
| Consistency.DoubleToggleRestores | app/api/posts/services.py:50-53 | toggling twice restores the ledger (as a multiset of pairs), every post row and the users |
| Consistency.DistinctLikersAddUp | app/api/posts/services.py:50-53 | N different users who had not liked a post, liking it in turn, raise its row count, and so its counter, by exactly N |
| Consistency.RegistrationKeepsValid | app/api/authentication/endpoints.py:108-117 | registration keeps the database consistent; its 409 check on the name as stored is what keeps usernames unique |
| Consistency.AddPostKeepsValid | app/db/repositories/post.py:52-66 | storing a post keeps the database consistent: fresh id, existing author, counter 0 matching no like rows |
| Consistency.DeletePostKeepsValid | app/db/repositories/post.py:86-89 | deleting a post with its cascade keeps the database consistent |
| Consistency.AddLikeOnLikedPairDuplicates | app/db/migrations/create_table.py:25-29 | the raw insert on a liked pair succeeds and leaves the pair twice, since the table has no unique constraint |
| Consistency.RemoveLikeOnUnlikedMiscounts | app/db/repositories/post.py:77-84 | the raw removal of an absent like still lowers the counter, which then disagrees with the rows |
| Consistency.UserAddOfTakenNameDuplicates | app/db/migrations/create_table.py:10-13 | the raw user insert of a taken name succeeds and leaves two users with one name |
| Consistency.PaddedNameDuplicatesAsWritten | app/api/authentication/endpoints.py:108-117 | as written, registering a stored 100-character name plus a space passes the 409 check, is stored cut back to the taken name, and leaves two users with one name; the corrected handler answers 409 |
| Consistency.DeleteUser | app/db/migrations/create_table.py:23-29 | deleting a user cascades to the user's posts, the user's like rows and the like rows of those posts, and touches no counter |
| Consistency.DeleteUserLeavesStaleCounter | app/db/migrations/create_table.py:21-29 | after that cascade, a post the user liked but did not write keeps a counter above its row count |

## Left out

- Real database access (the asyncpg pool, the SQL text, transactions as such): each repository call is one atomic transition, and a failure returns no new state.
- Concurrency: the check-then-write of registration and of the like toggle can race between requests. The invariant is stated for sequential execution only.
- The bcrypt and HS256 algorithms, and the `algorithm` setting: both are stand-ins with only the properties the backend relies on.
- Crypto.Hash: follows passlib's silent truncation at 72 bytes; a newer bcrypt backend that raises for passwords over 72 bytes instead is not modelled.
- AuthServices.CreateAccessToken: signs with the secret's value, the corrected key of the first Findings row; as written both token kinds are signed with the same masked string, so its distinct-secrets clause describes the intended program only.
- AuthServices.CreateRefreshToken: signs with the secret's value, the corrected key of the first Findings row; as written its distinct-secrets clause does not hold.
- AuthDependency.GetCurrentUser: decodes with the access secret's value, the corrected key of the first Findings row; as written any token signed with the mask, refresh tokens included, passes the decoding step.
- AuthDependency.RefreshTokenRefused: holds for the corrected key only; as written the refresh token is accepted (AuthServices.RefreshTokenPassesAsAccessAsWritten).
- AuthDependency.IssuedTokenLifetime: stated with the corrected key, and without the JWT library's own expiry check (next lines). In the program a token strictly past its `exp` is refused at decoding as "Could not validate credentials", so "Access expired" answers only at now == exp, and the clause `now >= exp <==> AccessExpired` describes the model, not the program, for now > exp. The acceptance clause (accepted exactly while now < exp, naming the user) is unaffected.
- AuthEndpoints.LogIn: the tokens are checked against the corrected keys of the first Findings row. The login handlers are modelled as written, so the identical 401 holds only for NUL-free names and passwords passlib accepts; AuthEndpoints.LoginStatusRevealsUser states the 500/401 split that remains.
- AuthEndpoints.HandlerRegistration: models the corrected 409 check, which looks up the name as the column will store it (see the third Findings row); AuthEndpoints.HandlerRegistrationAsWritten models the check on the name as sent.
- Consistency.PaddedNameDuplicatesAsWritten: requires that every stored name fits its column, which holds for any table filled through `UserRepo.Add`.
- The `hashed_password` column is VARCHAR(255); a bcrypt hash string is 60 characters, so its width check is not modelled.
- AuthDependency.GetCurrentUser: the JWT library's own expiry check inside `decode` is not modelled. With it, a token strictly past its `exp` is already refused at decoding, as "Could not validate credentials"; the model's "Access expired" for now >= exp is then reached only at now == exp.
- AuthDependency.GetCurrentUser: `datetime.timestamp(datetime.utcnow())` reads a naive UTC time as local time. The model takes the server to run in UTC and takes `now` in seconds as an input.
- AuthEndpoints.LogIn: both tokens are issued from the one clock value `now`. The source reads the clock once per token, microseconds apart.
- The OAuth2 bearer scheme's own 401 ("Not authenticated") for a missing Authorization header: the model starts from the bearer string, and the empty string is the "Access denied" case.
- `verify_username` (app/api/authentication/services.py:14-19) only forwards to `get_by_username`; the handlers call `UserRepo.GetByUsername` directly.
- `get_post_by_id` and `create_post` (app/api/posts/services.py:27-41) only forward to the repository; the handlers call `PostRepo.GetById` and `PostRepo.Add` directly.
- PostRepo.Add: the corrected insert of the second Findings row; as written (PostRepo.AddAsWritten) a post without text, files, link or preview is rolled back with a 500. Reading such posts back through `PostRepo.GetById`, `PostRepo.GetAll` and their handlers also rests on the corrected `Post` schema: as written, `get_all` and `get_by_id` (app/db/repositories/post.py:16-24 and 35-43) rebuild every row as `Post` and would fail on an absent text or link.
- PostEndpoints.SaveAndStore: stores through the corrected `PostRepo.Add` of the second Findings row; as written a post without a link or a preview is not stored.
- PostEndpoints.HandlerCreatePost: stores through the corrected `PostRepo.Add` (second Findings row), so a post without text, link or preview is stored; reading it back is modelled under the same corrected `Post` schema. JSON encoding of the preview is not modelled; the preview is an opaque `Preview` value.
- Pydantic request validation (wrong JSON types, missing body fields) and the 422 bodies it produces: only the path check `post_id >= 1` is modelled.
- File writes, the HTTP client and HTML parsing: writes are returned as scheduled `WriteTask`s. The link and image fetches are input outcomes (`Fetch`, `ImageFetch`). The parsed page is a record of the three optional meta tags.
- Integer widths: ids, counters and limits are unbounded integers. BIGSERIAL and INTEGER overflow are not modelled.
- A failed insert still consumes a sequence value in PostgreSQL. The model advances the sequences only on success, which changes which ids later rows get but no property stated here.
- Settings loading: only the two secrets and the two lifetimes (30 minutes and 7 days by default) are modelled.
- PostRepo.GetAll: `SELECT ... LIMIT ... OFFSET ...` has no ORDER BY, so PostgreSQL promises no row order; an `UPDATE` of a post's `like_count` writes a new row version that a scan typically returns after the others. The model fixes the scan order to insertion order and does not move an updated row.
- PostRepo.PagesTile: rests on that fixed scan order; without an ORDER BY the database does not promise that successive pages tile the table.
- PostServices.GetAllPosts: returns the repository's page in the modelled scan order, not the order PostgreSQL happens to use.
- PostEndpoints.HandlerGetAllPosts: "the front of the table" is the front in the modelled scan order.
- App wiring, routing prefixes and logging.

## Findings

| source | as written | input that shows it | evidently intended | confidence | as-written member | corrected member |
|---|---|---|---|---|---|---|
| app/api/authentication/services.py:49-53 | tokens are signed and checked with `str(settings.access_secret_key)` and `str(settings.refresh_secret_key)`; `str` of a pydantic `SecretStr` is the mask "**********" for any non-empty secret | any refresh token sent as bearer, or a token signed with the key "**********", is accepted by `get_current_user` | sign and verify with the secret's value (`get_secret_value()`), so each key is secret and the two token kinds are separate | not executed; high (pydantic v1 `SecretStr.__str__`) | AuthServices.RefreshTokenPassesAsAccessAsWritten | AuthServices.KeysSeparateTokens |
| app/db/repositories/post.py:58-66 | `add` rebuilds the inserted row as `Post`, whose `text` and `link` are `str` and whose `preview` is `dict`, inside the transaction; the create endpoint passes None for an omitted text or link | creating a post with text and files but no link: the insert happens, `Post(link=None)` raises, the transaction rolls back and the request fails with 500 | the response schema admits the same absent values `PostCreate` does, and the post is stored | not executed; high (pydantic v1 refuses None for a `str` field) | PostRepo.PostWithoutLinkRefusedAsWritten | PostRepo.Add |
| app/api/authentication/endpoints.py:108-117 | the 409 check looks up the username as sent, but `users.username` is VARCHAR(100) and PostgreSQL stores an over-long value whose excess is spaces cut to 100 characters (app/db/repositories/user.py:22-28) | a user named "a" repeated 100 times exists; registering that name followed by one space finds no user, passes the check, and inserts a second row named "a" repeated 100 times | the check rejects any name whose stored form is taken, so usernames stay unique | not executed; medium (PostgreSQL's documented VARCHAR cut of trailing spaces) | Consistency.PaddedNameDuplicatesAsWritten | Consistency.RegistrationKeepsValid |

=== FILE: auth_dependency.dfy ===
/** `get_current_user`: the dependency every protected endpoint uses to
    turn the bearer token into the acting user. */
module AuthDependency {
  import opened Prelude
  import opened Crypto
  import opened Schema
  import opened Http
  import opened AuthServices
  import UserRepo

  /** The empty bearer string. */
  const EmptyToken := Garbled("")

  /** The five-way ladder: no token, undecodable token, expired token, token
      without a username, unknown username; otherwise the stored user. The
      token counts as valid strictly before its `exp`. A payload without
      `exp` makes the comparison itself raise, and a username with a NUL
      character makes the lookup raise; nothing catches either. */
  function GetCurrentUser(db: Db, token: Jwt, settings: Settings, now: int): (r: Result<UserBase, HttpError>)
    ensures token == EmptyToken ==> r == Failure(AccessDenied)
    ensures token != EmptyToken && DecodeAccessToken(token, settings).Failure? ==> r == Failure(CouldNotValidate)
    ensures token != EmptyToken && DecodeAccessToken(token, settings).Success? ==>
      var claims := DecodeAccessToken(token, settings).value;
      && (claims.exp.None? ==> r.Failure? && r.error.status == InternalServerError)
      && (claims.exp.Some? && now >= claims.exp.value ==> r == Failure(AccessExpired))
      && (claims.exp.Some? && now < claims.exp.value && !Truthy(claims.username) ==> r == Failure(CouldNotValidate))
      && (claims.exp.Some? && now < claims.exp.value && Truthy(claims.username) && !NulFree(claims.username.value) ==>
            r.Failure? && r.error.status == InternalServerError)
      && (claims.exp.Some? && now < claims.exp.value && Truthy(claims.username) && NulFree(claims.username.value) ==>
            && ((exists u :: u in db.users && u.username == claims.username.value) ==> r.Success?)
            && (!(exists u :: u in db.users && u.username == claims.username.value) ==> r == Failure(CouldNotValidate)))
    ensures r.Success? ==>
      && DecodeAccessToken(token, settings).Success?
      && Some(r.value.username) == DecodeAccessToken(token, settings).value.username
      && exists u :: u in db.users && u.id == r.value.id && u.username == r.value.username
    ensures r.Failure? && r.error.status != InternalServerError ==> r.error.status == Unauthorized
  {
    if token == EmptyToken then Failure(AccessDenied)
    else match DecodeAccessToken(token, settings)
      case Failure(_) => Failure(CouldNotValidate)
      case Success(claims) =>
        if claims.exp.None? then Failure(Internal("comparison of a timestamp with None"))
        else if now >= claims.exp.value then Failure(AccessExpired)
        else if !Truthy(claims.username) then Failure(CouldNotValidate)
        else match UserRepo.GetByUsername(db, claims.username.value)
          case Failure(_) => Failure(Internal("invalid byte sequence for encoding UTF8: 0x00"))
          case Success(None) => Failure(CouldNotValidate)
          case Success(Some(user)) => Success(UserBase(user.id, user.username))
  }

  /** An access token issued for a stored user is accepted exactly while
      the clock is before its expiry, and names that user; from the expiry
      on it is refused as expired. (A stored name never holds a NUL
      character, since the insert refuses one; for such a name the lookup
      raises.) */
  lemma {:induction false} IssuedTokenLifetime(db: Db, username: string, settings: Settings, issuedAt: int, expiresDelta: Option<int>, now: int)
    requires username != ""
    requires exists u :: u in db.users && u.username == username
    ensures var exp := Expiry(issuedAt, expiresDelta, settings.accessTokenExpireMinutes);
      var r := GetCurrentUser(db, CreateAccessToken(username, settings, issuedAt, expiresDelta), settings, now);
      && (now < exp && NulFree(username) <==> r.Success?)
      && (now < exp && NulFree(username) ==> r.value.username == username)
      && (now < exp && !NulFree(username) ==> r.Failure? && r.error.status == InternalServerError)
      && (now >= exp <==> r == Failure(AccessExpired))
  {
    var token := CreateAccessToken(username, settings, issuedAt, expiresDelta);
    assert token != EmptyToken;
    assert DecodeAccessToken(token, settings).Success?;
  }

  /** A refresh token is never accepted where an access token is expected
      while the two secrets differ. */
  lemma RefreshTokenRefused(db: Db, username: string, settings: Settings, issuedAt: int, expiresDelta: Option<int>, now: int)
    requires settings.accessSecretKey != settings.refreshSecretKey
    ensures GetCurrentUser(db, CreateRefreshToken(username, settings, issuedAt, expiresDelta), settings, now)
         == Failure(CouldNotValidate)
  {
  }
}

=== FILE: auth_endpoints.dfy ===
/** The authentication endpoints: `/token` and `/login` (identical
    decisions over two request shapes) and `/registration`. */
module AuthEndpoints {
  import opened Prelude
  import opened Crypto
  import Utf8
  import opened Schema
  import opened Http
  import opened AuthServices
  import UserRepo

  /** The `Token` response: both tokens of a successful login. */
  datatype TokenPair = TokenPair(accessToken: Jwt, refreshToken: Jwt)

  /** The OAuth2 password form `/token` reads (scopes and client fields unused). */
  datatype PasswordRequestForm = PasswordRequestForm(username: string, password: string)

  /** The JSON body `/login` reads. */
  datatype UserLogin = UserLogin(username: string, password: string)

  /** The ladder both login endpoints run: look the user up, check the
      password, issue both tokens for the stored username. An unknown user
      and a wrong password produce the very same error. A name with a NUL
      character makes the lookup raise, and a password passlib refuses
      makes the check raise, which happens only once a user was found. */
  function LogIn(db: Db, username: string, password: string, settings: Settings, now: int): (r: Result<TokenPair, HttpError>)
    ensures !NulFree(username) ==> r.Failure? && r.error.status == InternalServerError
    ensures NulFree(username) && UserRepo.Lookup(db, username).None? ==> r == Failure(IncorrectCredentials)
    ensures NulFree(username) && UserRepo.Lookup(db, username).Some? ==>
      && (!PasswordAccepted(password) ==> r.Failure? && r.error.status == InternalServerError)
      && (PasswordAccepted(password) ==>
            (r.Success? <==> VerifyPassword(password, UserRepo.Lookup(db, username).value.password).value))
    ensures NulFree(username) && PasswordAccepted(password) && r.Failure? ==> r.error == IncorrectCredentials
    ensures r.Failure? ==> r.error == IncorrectCredentials || r.error.status == InternalServerError
    ensures r.Success? ==>
      && DecodeAccessToken(r.value.accessToken, settings)
         == Success(Payload(now + settings.accessTokenExpireMinutes * 60, username))
      && DecodeRefreshToken(r.value.refreshToken, settings)
         == Success(Payload(now + settings.refreshTokenExpireMinutes * 60, username))
  {
    match UserRepo.GetByUsername(db, username)
    case Failure(_) => Failure(Internal("invalid byte sequence for encoding UTF8: 0x00"))
    case Success(None) => Failure(IncorrectCredentials)
    case Success(Some(userDb)) =>
      match VerifyPassword(password, userDb.password)
      case Failure(_) => Failure(Internal("password refused by passlib"))
      case Success(ok) =>
        if !ok then Failure(IncorrectCredentials)
        else Success(TokenPair(
          CreateAccessToken(userDb.username, settings, now, None),
          CreateRefreshToken(userDb.username, settings, now, None)))
  }

  /** The identical 401 does not survive a password passlib refuses: the
      same password gives 500 for a registered name and 401 for an
      unregistered one, so the status tells which names are registered. */
  lemma LoginStatusRevealsUser(db: Db, known: string, unknown: string, password: string, settings: Settings, now: int)
    requires NulFree(known) && UserRepo.Lookup(db, known).Some?
    requires NulFree(unknown) && UserRepo.Lookup(db, unknown).None?
    requires !PasswordAccepted(password)
    ensures LogIn(db, known, password, settings, now).Failure?
    ensures LogIn(db, known, password, settings, now).error.status == InternalServerError
    ensures LogIn(db, unknown, password, settings, now) == Failure(IncorrectCredentials)
  {
  }

  /** `handler_login_for_tokens` (`/token`). */
  function HandlerLoginForTokens(db: Db, form: PasswordRequestForm, settings: Settings, now: int): (r: Result<TokenPair, HttpError>)
    ensures r.Success? <==>
      && NulFree(form.username)
      && UserRepo.Lookup(db, form.username).Some?
      && VerifyPassword(form.password, UserRepo.Lookup(db, form.username).value.password) == Success(true)
    ensures NulFree(form.username) && PasswordAccepted(form.password) && r.Failure? ==> r.error == IncorrectCredentials
    ensures NulFree(form.username) && UserRepo.Lookup(db, form.username).None? ==> r == Failure(IncorrectCredentials)
    ensures (!NulFree(form.username) || (UserRepo.Lookup(db, form.username).Some? && !PasswordAccepted(form.password))) ==>
      r.Failure? && r.error.status == InternalServerError
    ensures r.Success? ==>
      && DecodeAccessToken(r.value.accessToken, settings)
         == Success(Payload(now + settings.accessTokenExpireMinutes * 60, form.username))
      && DecodeRefreshToken(r.value.refreshToken, settings)
         == Success(Payload(now + settings.refreshTokenExpireMinutes * 60, form.username))
  {
    LogIn(db, form.username, form.password, settings, now)
  }

  /** `handler_login` (`/login`): the same outcome as `/token` for the same credentials. */
  function HandlerLogin(db: Db, login: UserLogin, settings: Settings, now: int): (r: Result<TokenPair, HttpError>)
    ensures r == HandlerLoginForTokens(db, PasswordRequestForm(login.username, login.password), settings, now)
  {
    LogIn(db, login.username, login.password, settings, now)
  }

  /** What an uncaught failure of `registration_user` becomes. */
  function RegistrationFailure(e: RegistrationError): HttpError {
    match e
    case PasswordRefused(_) => Internal("password refused by passlib")
    case InsertFailed(_) => Internal("value too long for type character varying(100)")
  }

  /** `handler_registration` as written: 409 when a row carries exactly the
      requested name; otherwise the user is hashed and stored. The check
      compares the name as sent, but the column stores a name whose excess
      past 100 characters is spaces cut to 100, so a padded copy of a
      taken name passes the check and is stored as a duplicate. */
  function HandlerRegistrationAsWritten(db: Db, user: UserCreate, salt: nat): (r: Result<(Db, UserBase), HttpError>)
    ensures !NulFree(user.username) ==> r.Failure? && r.error.status == InternalServerError
    ensures NulFree(user.username) && UserRepo.Lookup(db, user.username).Some? ==> r == Failure(UsernameTaken)
    ensures r.Success? <==>
      && NulFree(user.username) && UserRepo.Lookup(db, user.username).None?
      && RegistrationUser(db, user, salt).Success?
    ensures r.Success? ==> r == Success(RegistrationUser(db, user, salt).value)
  {
    match UserRepo.GetByUsername(db, user.username)
    case Failure(_) => Failure(Internal("invalid byte sequence for encoding UTF8: 0x00"))
    case Success(Some(_)) => Failure(UsernameTaken)
    case Success(None) =>
      match RegistrationUser(db, user, salt)
      case Failure(e) => Failure(RegistrationFailure(e))
      case Success(added) => Success(added)
  }

  /** `handler_registration` as evidently intended: the 409 check looks up
      the name the column will store, so no stored name is ever repeated.
      A name with a NUL character makes the lookup raise; a password
      passlib refuses and a name the column refuses are 500s. */
  function HandlerRegistration(db: Db, user: UserCreate, salt: nat): (r: Result<(Db, UserBase), HttpError>)
    ensures !NulFree(user.username) ==> r.Failure? && r.error.status == InternalServerError
    ensures NulFree(user.username) && UserRepo.Lookup(db, UserRepo.StoredUsername(user.username)).Some? ==>
      r == Failure(UsernameTaken)
    ensures NulFree(user.username) && UserRepo.Lookup(db, UserRepo.StoredUsername(user.username)).None?
            && (!PasswordAccepted(user.password) || Varchar(user.username, UsernameMaxLength).Failure?) ==>
      r.Failure? && r.error.status == InternalServerError
    ensures r.Success? <==>
      && NulFree(user.username) && UserRepo.Lookup(db, UserRepo.StoredUsername(user.username)).None?
      && PasswordAccepted(user.password) && Varchar(user.username, UsernameMaxLength).Success?
    ensures r.Success? ==>
      var (db', created) := r.value;
      var row := UserRow(created.id, created.username, Hash(user.password, salt).value);
      && created == UserBase(db.nextUserId, UserRepo.StoredUsername(user.username))
      && (|user.username| <= UsernameMaxLength ==> created.username == user.username)
      && db'.users == db.users + [row]
      && db'.posts == db.posts && db'.likes == db.likes
      && db'.nextUserId == db.nextUserId + 1 && db'.nextPostId == db.nextPostId
      && (forall u :: u in db.users ==> u.username != created.username)
      && UserRepo.Lookup(db', created.username) == Some(UserDb(row.id, row.username, row.hashedPassword))
  {
    match UserRepo.GetByUsername(db, UserRepo.StoredUsername(user.username))
    case Failure(_) => Failure(Internal("invalid byte sequence for encoding UTF8: 0x00"))
    case Success(Some(_)) => Failure(UsernameTaken)
    case Success(None) =>
      match RegistrationUser(db, user, salt)
      case Failure(e) => Failure(RegistrationFailure(e))
      case Success((db', created)) =>
        var row := UserRow(created.id, created.username, Hash(user.password, salt).value);
        UserRepo.FindAppendedFresh(db.users, row);
        Success((db', created))
  }

  /** After a successful registration, logging in under the name the
      response returned, with the same password, yields two tokens for that
      name. Another password passlib accepts succeeds exactly when its
      first 72 UTF-8 bytes are the registered one's (for passwords within
      72 bytes: exactly when it is the same), and is otherwise refused
      like an unknown user; one passlib refuses gives 500. */
  lemma RegisterThenLogIn(db: Db, user: UserCreate, salt: nat, other: string, settings: Settings, now: int)
    requires HandlerRegistration(db, user, salt).Success?
    ensures var (db', created) := HandlerRegistration(db, user, salt).value;
      var r := HandlerLogin(db', UserLogin(created.username, user.password), settings, now);
      var s := HandlerLogin(db', UserLogin(created.username, other), settings, now);
      && r.Success?
      && DecodeAccessToken(r.value.accessToken, settings).value.username == Some(created.username)
      && DecodeRefreshToken(r.value.refreshToken, settings).value.username == Some(created.username)
      && (PasswordAccepted(other) ==> (s.Success? <==> BcryptKey(other) == BcryptKey(user.password)))
      && (PasswordAccepted(other) && s.Failure? ==> s == Failure(IncorrectCredentials))
      && (!PasswordAccepted(other) ==> s.Failure? && s.error.status == InternalServerError)
      && (NulFree(other) && |Utf8.Encode(user.password)| <= BcryptMaxBytes && |Utf8.Encode(other)| <= BcryptMaxBytes ==>
            (s.Success? <==> other == user.password))
  {
    var (db', created) := HandlerRegistration(db, user, salt).value;
    var hashed := Hash(user.password, salt).value;
    assert NulFree(created.username);
    if NulFree(other) && |Utf8.Encode(user.password)| <= BcryptMaxBytes && |Utf8.Encode(other)| <= BcryptMaxBytes {
      ShortPasswordsVerifyExactly(user.password, other, salt);
    }
  }
}

=== FILE: auth_services.dfy ===
/** The authentication services: password hashing for registration and
    login, and issuing and decoding of the access and refresh tokens.
    Time is in whole seconds since the epoch and is passed in; so is the
    salt bcrypt would draw. */
module AuthServices {
  import opened Prelude
  import opened Crypto
  import Utf8
  import opened Schema
  import UserRepo

  /** A settings secret. Rendering it with `str` masks it: any non-empty
      secret prints as ten asterisks. */
  datatype SecretStr = SecretStr(secretValue: string) {
    function Str(): (s: string)
      ensures secretValue != "" ==> s == Mask
      ensures secretValue == "" ==> s == ""
    {
      if secretValue != "" then Mask else ""
    }
  }

  const Mask: string := "**********"

  const DefaultAccessTokenExpireMinutes := 30
  const DefaultRefreshTokenExpireMinutes := 60 * 24 * 7

  /** The part of the application settings the token services read. */
  datatype Settings = Settings(
    accessSecretKey: SecretStr,
    refreshSecretKey: SecretStr,
    accessTokenExpireMinutes: int,
    refreshTokenExpireMinutes: int)

  function DefaultSettings(accessSecretKey: SecretStr, refreshSecretKey: SecretStr): Settings {
    Settings(accessSecretKey, refreshSecretKey, DefaultAccessTokenExpireMinutes, DefaultRefreshTokenExpireMinutes)
  }

  /** Truthiness of an optional `timedelta` (in seconds): None and a zero
      delta are falsy, a negative delta is truthy. */
  predicate DeltaTruthy(expiresDelta: Option<int>) {
    expiresDelta.Some? && expiresDelta.value != 0
  }

  /** `exp` of a token issued at `now`: `now + expires_delta` when the delta
      is truthy, otherwise `now` plus the default lifetime. */
  function Expiry(now: int, expiresDelta: Option<int>, defaultMinutes: int): (exp: int)
    ensures DeltaTruthy(expiresDelta) ==> exp == now + expiresDelta.value
    ensures !DeltaTruthy(expiresDelta) ==> exp == now + defaultMinutes * 60
  {
    if DeltaTruthy(expiresDelta) then now + expiresDelta.value else now + defaultMinutes * 60
  }

  /** The key the source hands to the JWT library: `str(secret)`. */
  function SigningKeyAsWritten(secret: SecretStr): string {
    secret.Str()
  }

  /** The key evidently intended: the secret's value. Used by the rest of the model. */
  function SigningKey(secret: SecretStr): string {
    secret.secretValue
  }

  /** The payload of every issued token: exactly `exp` and `username`. */
  function Payload(exp: int, username: string): Claims {
    Claims(Some(exp), Some(username))
  }

  /** `decode_access_token` */
  function DecodeAccessToken(token: Jwt, settings: Settings): Result<Claims, JwtError> {
    Decode(token, SigningKey(settings.accessSecretKey))
  }

  /** `decode_refresh_token` */
  function DecodeRefreshToken(token: Jwt, settings: Settings): Result<Claims, JwtError> {
    Decode(token, SigningKey(settings.refreshSecretKey))
  }

  /** `create_access_token`: decodes under the access key to exactly the
      username and the expiry; under a different refresh key it does not decode. */
  function CreateAccessToken(username: string, settings: Settings, now: int, expiresDelta: Option<int>): (t: Jwt)
    ensures DecodeAccessToken(t, settings)
         == Success(Payload(Expiry(now, expiresDelta, settings.accessTokenExpireMinutes), username))
    ensures settings.accessSecretKey != settings.refreshSecretKey ==> DecodeRefreshToken(t, settings).Failure?
  {
    Encode(Payload(Expiry(now, expiresDelta, settings.accessTokenExpireMinutes), username), SigningKey(settings.accessSecretKey))
  }

  /** `create_refresh_token`: the same under the refresh key and lifetime. */
  function CreateRefreshToken(username: string, settings: Settings, now: int, expiresDelta: Option<int>): (t: Jwt)
    ensures DecodeRefreshToken(t, settings)
         == Success(Payload(Expiry(now, expiresDelta, settings.refreshTokenExpireMinutes), username))
    ensures settings.accessSecretKey != settings.refreshSecretKey ==> DecodeAccessToken(t, settings).Failure?
  {
    Encode(Payload(Expiry(now, expiresDelta, settings.refreshTokenExpireMinutes), username), SigningKey(settings.refreshSecretKey))
  }

  /** As written, both tokens are signed with the masked rendering of their
      secrets, which is the same public string for any two non-empty
      secrets: a refresh token passes as an access token, and anyone can
      sign a token the backend accepts. */
  lemma RefreshTokenPassesAsAccessAsWritten(settings: Settings, claims: Claims)
    requires settings.accessSecretKey.secretValue != "" && settings.refreshSecretKey.secretValue != ""
    ensures Decode(Encode(claims, SigningKeyAsWritten(settings.refreshSecretKey)),
                   SigningKeyAsWritten(settings.accessSecretKey)) == Success(claims)
    ensures Decode(Encode(claims, Mask), SigningKeyAsWritten(settings.accessSecretKey)) == Success(claims)
  {
  }

  /** With the secret values as keys, a token signed under one secret
      decodes under another only when the two are equal, and a token made
      without the secret is rejected. */
  lemma KeysSeparateTokens(settings: Settings, claims: Claims, forgedKey: string)
    requires forgedKey != settings.accessSecretKey.secretValue
    ensures DecodeAccessToken(Encode(claims, SigningKey(settings.refreshSecretKey)), settings).Success?
        <==> settings.accessSecretKey == settings.refreshSecretKey
    ensures DecodeAccessToken(Encode(claims, forgedKey), settings) == Failure(InvalidSignature)
  {
  }

  /** `verify_password`: the library's verify, which refuses a password
      passlib does not accept and otherwise re-hashes the plaintext under
      the salt embedded in the stored hash. */
  function VerifyPassword(plain: string, hashed: PasswordHash): (ok: Result<bool, CryptoError>)
    ensures ok.Success? <==> PasswordAccepted(plain)
    ensures ok.Success? ==> (ok.value <==> Hash(plain, hashed.salt) == Success(hashed))
  {
    Verify(plain, hashed)
  }

  /** `UserCreate` as the registration endpoint receives it. */
  datatype UserCreate = UserCreate(username: string, password: string)

  /** What `registration_user` raises: the hashing or the insert failed. */
  datatype RegistrationError = PasswordRefused(reason: CryptoError) | InsertFailed(cause: DbError)

  /** `registration_user`: hashes the password (which passlib may refuse),
      then stores the user with the hash in place of the plaintext. The
      stored hash accepts exactly the accepted passwords that agree with
      the registered one on their first 72 UTF-8 bytes, which for a
      password that fits in 72 bytes is that password alone. */
  function RegistrationUser(db: Db, user: UserCreate, salt: nat): (r: Result<(Db, UserBase), RegistrationError>)
    ensures !PasswordAccepted(user.password) ==> r.Failure? && r.error.PasswordRefused?
    ensures r.Success? <==> PasswordAccepted(user.password) && Varchar(user.username, UsernameMaxLength).Success?
    ensures r.Success? ==>
      var (db', created) := r.value;
      var stored := Hash(user.password, salt).value;
      && created == UserBase(db.nextUserId, UserRepo.StoredUsername(user.username))
      && db'.users == db.users + [UserRow(created.id, created.username, stored)]
      && (forall p :: PasswordAccepted(p) ==>
            VerifyPassword(p, stored) == Success(BcryptKey(p) == BcryptKey(user.password)))
      && (|Utf8.Encode(user.password)| <= BcryptMaxBytes ==>
            forall p :: NulFree(p) && |Utf8.Encode(p)| <= BcryptMaxBytes ==>
              VerifyPassword(p, stored) == Success(p == user.password))
      && db'.posts == db.posts && db'.likes == db.likes && db'.nextPostId == db.nextPostId
      && db'.nextUserId == db.nextUserId + 1
  {
    match Hash(user.password, salt)
    case Failure(e) => Failure(PasswordRefused(e))
    case Success(hashed) =>
      match UserRepo.Add(db, HashedUserCreate(user.username, hashed))
      case Failure(e) => Failure(InsertFailed(e))
      case Success(added) =>
        assert added.0.users == added.0.users[..|db.users|] + [added.0.users[|db.users|]];
        assert |Utf8.Encode(user.password)| <= BcryptMaxBytes ==>
          forall p :: NulFree(p) && |Utf8.Encode(p)| <= BcryptMaxBytes ==> Verify(p, hashed) == Success(p == user.password) by {
          if |Utf8.Encode(user.password)| <= BcryptMaxBytes {
            forall p | NulFree(p) && |Utf8.Encode(p)| <= BcryptMaxBytes
              ensures Verify(p, hashed) == Success(p == user.password)
            {
              ShortPasswordsVerifyExactly(user.password, p, salt);
            }
          }
        }
        Success(added)
  }
}

=== FILE: consistency.dfy ===
/** The database invariant the backend keeps under sequential execution,
    and its preservation by every writing operation. The schema itself
    enforces only the primary keys, the sequences and the foreign keys;
    unique usernames, at most one like row per (user, post) pair and
    counters that equal the row counts are kept by the application's own
    check-then-write logic alone. */
module Consistency {
  import opened Prelude
  import opened Schema
  import opened Ledger
  import opened Crypto
  import PostRepo
  import UserRepo
  import PostServices
  import AuthEndpoints
  import AuthServices
  import Http

  /** Primary keys and sequences: ids are unique, at least 1, and below
      the value the sequence hands out next. */
  predicate KeysWellFormed(db: Db) {
    && 1 <= db.nextUserId && 1 <= db.nextPostId
    && (forall i :: 0 <= i < |db.users| ==> 1 <= db.users[i].id < db.nextUserId)
    && (forall i, j :: 0 <= i < j < |db.users| ==> db.users[i].id != db.users[j].id)
    && (forall i :: 0 <= i < |db.posts| ==> 1 <= db.posts[i].id < db.nextPostId)
    && PostIdsUnique(db.posts)
  }

  predicate PostIdsUnique(posts: seq<PostRow>) {
    forall i, j :: 0 <= i < j < |posts| ==> posts[i].id != posts[j].id
  }

  /** Foreign keys: posts name existing authors, like rows existing users and posts. */
  predicate ReferencesResolve(db: Db) {
    && (forall i :: 0 <= i < |db.posts| ==> db.posts[i].authorId in UserIds(db.users))
    && (forall x :: x in db.likes ==> x.userId in UserIds(db.users) && x.postId in PostIds(db.posts))
  }

  /** No two users share a username. */
  predicate UsernamesUnique(db: Db) {
    forall i, j :: 0 <= i < j < |db.users| ==> db.users[i].username != db.users[j].username
  }

  /** The like ledger: every pair at most once, and every post's counter
      equal to the number of like rows for it. */
  predicate LedgerConsistent(db: Db) {
    && Distinct(db.likes)
    && forall i :: 0 <= i < |db.posts| ==> db.posts[i].likeCount == CountFor(db.likes, db.posts[i].id)
  }

  predicate Valid(db: Db) {
    KeysWellFormed(db) && ReferencesResolve(db) && UsernamesUnique(db) && LedgerConsistent(db)
  }

  lemma EmptyDbValid()
    ensures Valid(EmptyDb)
  {
  }

  lemma CountOfUnreferencedPost(likes: seq<LikeRow>, postId: int)
    requires forall x :: x in likes ==> x.postId != postId
    ensures CountFor(likes, postId) == 0
    decreases |likes|
  {
    if |likes| > 0 {
      assert likes[0] in likes;
      assert forall x :: x in likes[1..] ==> x in likes;
      CountOfUnreferencedPost(likes[1..], postId);
    }
  }

  lemma {:induction false} DistinctCopies(likes: seq<LikeRow>, r: LikeRow)
    requires Distinct(likes) && r in likes
    ensures multiset(likes)[r] == 1
  {
    DistinctIffAtMostOnce(likes);
    assert multiset(likes)[r] <= 1;
  }

  /** Replacing the ledger and shifting one post's counter keeps the
      invariant when the new ledger is distinct, references existing rows,
      and changes that post's row count by the same amount. */
  lemma {:induction false} ShiftKeepsValid(db: Db, postId: int, delta: int, likes': seq<LikeRow>)
    requires Valid(db)
    requires Distinct(likes')
    requires forall x :: x in likes' ==> x.userId in UserIds(db.users) && x.postId in PostIds(db.posts)
    requires forall q :: CountFor(likes', q) == CountFor(db.likes, q) + (if q == postId then delta else 0)
    ensures Valid(db.(likes := likes', posts := PostRepo.ShiftLikeCount(db.posts, postId, delta)))
  {
    var posts' := PostRepo.ShiftLikeCount(db.posts, postId, delta);
    var db' := db.(likes := likes', posts := posts');
    assert KeysWellFormed(db');
    assert ReferencesResolve(db') by {
      forall i | 0 <= i < |posts'| ensures posts'[i].authorId in UserIds(db.users) {
        assert posts'[i].authorId == db.posts[i].authorId;
      }
    }
    forall i | 0 <= i < |posts'|
      ensures posts'[i].likeCount == CountFor(likes', posts'[i].id)
    {
      assert CountFor(likes', db.posts[i].id) == CountFor(db.likes, db.posts[i].id) + (if db.posts[i].id == postId then delta else 0);
    }
  }

  /** Inserting the like of a pair not yet liked keeps the invariant. */
  lemma {:induction false} AddLikeKeepsValid(db: Db, postId: int, userId: int)
    requires Valid(db)
    requires LikeRow(userId, postId) !in db.likes
    requires userId in UserIds(db.users) && postId in PostIds(db.posts)
    ensures Valid(PostRepo.AddLike(db, postId, userId).value.0)
  {
    var r := LikeRow(userId, postId);
    var likes' := db.likes + [r];
    AppendDistinct(db.likes, r);
    forall q ensures CountFor(likes', q) == CountFor(db.likes, q) + (if q == postId then 1 else 0) {
      CountAppend(db.likes, r, q);
    }
    ShiftKeepsValid(db, postId, 1, likes');
    assert PostRepo.AddLike(db, postId, userId).value.0
        == db.(likes := likes', posts := PostRepo.ShiftLikeCount(db.posts, postId, 1));
  }

  /** Deleting the like of a pair that is liked keeps the invariant. */
  lemma {:induction false} RemoveLikeKeepsValid(db: Db, postId: int, userId: int)
    requires Valid(db)
    requires LikeRow(userId, postId) in db.likes
    ensures PostRepo.RemoveLike(db, postId, userId).Success?
    ensures Valid(PostRepo.RemoveLike(db, postId, userId).value.0)
  {
    var r := LikeRow(userId, postId);
    assert postId in PostIds(db.posts);
    var likes' := WithoutPair(db.likes, r);
    KeepDistinct(db.likes, OtherThan(r));
    DistinctCopies(db.likes, r);
    forall q ensures CountFor(likes', q) == CountFor(db.likes, q) + (if q == postId then -1 else 0) {
      if q == postId {
        CountWithoutPair(db.likes, r);
      } else {
        CountKeepsUntouchedPost(db.likes, OtherThan(r), q);
      }
    }
    ShiftKeepsValid(db, postId, -1, likes');
    assert PostRepo.RemoveLike(db, postId, userId).value.0
        == db.(likes := likes', posts := PostRepo.ShiftLikeCount(db.posts, postId, -1));
  }

  /** The stored counter of an existing post is its row count. */
  lemma CounterOfFound(db: Db, postId: int)
    requires Valid(db) && postId in PostIds(db.posts)
    ensures PostRepo.FindPost(db.posts, postId).value.likeCount == CountFor(db.likes, postId)
  {
    var found := PostRepo.FindPost(db.posts, postId).value;
    var k :| 0 <= k < |db.posts| && db.posts[k] == found;
  }

  /** A liked pair: the toggle deletes the like and the counter drops by one. */
  lemma {:induction false} ToggleOff(db: Db, postId: int, userId: int)
    requires Valid(db)
    requires LikeRow(userId, postId) in db.likes
    ensures PostServices.LikePost(db, postId, userId).Success?
    ensures
      var (db', count) := PostServices.LikePost(db, postId, userId).value;
      && Valid(db')
      && LikeRow(userId, postId) !in db'.likes
      && db'.users == db.users && PostIds(db'.posts) == PostIds(db.posts)
      && count == CountFor(db.likes, postId) - 1
      && count == CountFor(db'.likes, postId)
  {
    var r := LikeRow(userId, postId);
    assert userId != 0 by {
      var u :| u in db.users && u.id == userId;
      var k :| 0 <= k < |db.users| && db.users[k] == u;
    }
    RemoveLikeKeepsValid(db, postId, userId);
    CounterOfFound(db, postId);
    DistinctCopies(db.likes, r);
    CountWithoutPair(db.likes, r);
    assert PostRepo.RemoveLike(db, postId, userId).value.0.likes == WithoutPair(db.likes, r);
  }

  /** An unliked pair of an existing user and post: the toggle inserts the
      like and the counter rises by one. */
  lemma {:induction false} ToggleOn(db: Db, postId: int, userId: int)
    requires Valid(db)
    requires LikeRow(userId, postId) !in db.likes
    requires userId in UserIds(db.users) && postId in PostIds(db.posts)
    ensures PostServices.LikePost(db, postId, userId).Success?
    ensures
      var (db', count) := PostServices.LikePost(db, postId, userId).value;
      && Valid(db')
      && db'.likes == db.likes + [LikeRow(userId, postId)]
      && db'.users == db.users && PostIds(db'.posts) == PostIds(db.posts)
      && count == CountFor(db.likes, postId) + 1
      && count == CountFor(db'.likes, postId)
  {
    var r := LikeRow(userId, postId);
    AddLikeKeepsValid(db, postId, userId);
    CounterOfFound(db, postId);
    CountAppend(db.likes, r, postId);
    assert PostRepo.AddLike(db, postId, userId).value.0.likes == db.likes + [r];
  }

  /** In a valid database the toggle succeeds exactly for an existing user
      and post, keeps the invariant, flips the pair's membership and moves
      the post's counter by one in the matching direction; the counter it
      returns is the new number of like rows, never negative. */
  lemma {:induction false} LikePostToggles(db: Db, postId: int, userId: int)
    requires Valid(db)
    ensures PostServices.LikePost(db, postId, userId).Success?
        <==> userId in UserIds(db.users) && postId in PostIds(db.posts)
    ensures PostServices.LikePost(db, postId, userId).Success? ==>
      var (db', count) := PostServices.LikePost(db, postId, userId).value;
      && Valid(db')
      && (LikeRow(userId, postId) in db'.likes <==> LikeRow(userId, postId) !in db.likes)
      && count == CountFor(db'.likes, postId)
      && count == CountFor(db.likes, postId) + (if LikeRow(userId, postId) in db.likes then -1 else 1)
  {
    if LikeRow(userId, postId) in db.likes {
      assert userId in UserIds(db.users) && postId in PostIds(db.posts);
      ToggleOff(db, postId, userId);
    } else if userId in UserIds(db.users) && postId in PostIds(db.posts) {
      ToggleOn(db, postId, userId);
    }
  }

  /** Shifting a counter and shifting it back restores the rows. */
  lemma ShiftBack(posts: seq<PostRow>, postId: int, delta: int)
    ensures PostRepo.ShiftLikeCount(PostRepo.ShiftLikeCount(posts, postId, delta), postId, -delta) == posts
  {
    var once := PostRepo.ShiftLikeCount(posts, postId, delta);
    var twice := PostRepo.ShiftLikeCount(once, postId, -delta);
    assert forall i :: 0 <= i < |posts| ==> twice[i] == posts[i];
  }

  lemma {:induction false} OffThenOn(db: Db, postId: int, userId: int)
    requires Distinct(db.likes) && LikeRow(userId, postId) in db.likes && userId != 0
    requires userId in UserIds(db.users) && postId in PostIds(db.posts)
    ensures PostServices.LikePost(db, postId, userId).Success?
    ensures
      var db1 := PostServices.LikePost(db, postId, userId).value.0;
      && PostServices.LikePost(db1, postId, userId).Success?
      && var db2 := PostServices.LikePost(db1, postId, userId).value.0;
      && multiset(db2.likes) == multiset(db.likes) && db2.posts == db.posts && db2.users == db.users
  {
    var r := LikeRow(userId, postId);
    var db1 := PostRepo.RemoveLike(db, postId, userId).value.0;
    assert db1 == db.(likes := WithoutPair(db.likes, r), posts := PostRepo.ShiftLikeCount(db.posts, postId, -1));
    var db2 := PostRepo.AddLike(db1, postId, userId).value.0;
    assert db2.likes == db1.likes + [r];
    assert db2.posts == PostRepo.ShiftLikeCount(db1.posts, postId, 1);
    ShiftBack(db.posts, postId, -1);
    DistinctCopies(db.likes, r);
    forall x ensures multiset(db2.likes)[x] == multiset(db.likes)[x] {
      KeepMultiset(db.likes, OtherThan(r), x);
    }
    assert multiset(db2.likes) == multiset(db.likes);
  }

  lemma {:induction false} OnThenOff(db: Db, postId: int, userId: int)
    requires LikeRow(userId, postId) !in db.likes && userId != 0
    requires userId in UserIds(db.users) && postId in PostIds(db.posts)
    ensures PostServices.LikePost(db, postId, userId).Success?
    ensures
      var db1 := PostServices.LikePost(db, postId, userId).value.0;
      && PostServices.LikePost(db1, postId, userId).Success?
      && var db2 := PostServices.LikePost(db1, postId, userId).value.0;
      && multiset(db2.likes) == multiset(db.likes) && db2.posts == db.posts && db2.users == db.users
  {
    var r := LikeRow(userId, postId);
    var db1 := PostRepo.AddLike(db, postId, userId).value.0;
    assert db1 == db.(likes := db.likes + [r], posts := PostRepo.ShiftLikeCount(db.posts, postId, 1));
    assert r in db1.likes;
    var db2 := PostRepo.RemoveLike(db1, postId, userId).value.0;
    assert db2.likes == WithoutPair(db1.likes, r);
    assert db2.posts == PostRepo.ShiftLikeCount(db1.posts, postId, -1);
    ShiftBack(db.posts, postId, 1);
    forall x ensures multiset(db2.likes)[x] == multiset(db.likes)[x] {
      KeepMultiset(db1.likes, OtherThan(r), x);
    }
    assert multiset(db2.likes) == multiset(db.likes);
  }

  /** Liking and then unliking (or the reverse) restores the ledger as a
      multiset of pairs and every post's counter. */
  lemma DoubleToggleRestores(db: Db, postId: int, userId: int)
    requires Valid(db)
    requires userId in UserIds(db.users) && postId in PostIds(db.posts)
    ensures PostServices.LikePost(db, postId, userId).Success?
    ensures
      var db1 := PostServices.LikePost(db, postId, userId).value.0;
      && PostServices.LikePost(db1, postId, userId).Success?
      && var db2 := PostServices.LikePost(db1, postId, userId).value.0;
      && multiset(db2.likes) == multiset(db.likes) && db2.posts == db.posts && db2.users == db.users
  {
    assert userId != 0 by {
      var u :| u in db.users && u.id == userId;
      var k :| 0 <= k < |db.users| && db.users[k] == u;
    }
    if LikeRow(userId, postId) in db.likes {
      OffThenOn(db, postId, userId);
    } else {
      OnThenOff(db, postId, userId);
    }
  }

  /** Appending a user row under the next id, with a name no row has,
      keeps the invariant. */
  lemma {:induction false} AppendUserKeepsValid(db: Db, row: UserRow)
    requires Valid(db)
    requires row.id == db.nextUserId
    requires forall u :: u in db.users ==> u.username != row.username
    ensures Valid(db.(users := db.users + [row], nextUserId := db.nextUserId + 1))
  {
    var db' := db.(users := db.users + [row], nextUserId := db.nextUserId + 1);
    var n := |db.users|;
    assert forall i :: 0 <= i < n ==> db'.users[i] == db.users[i];
    assert UserIds(db.users) <= UserIds(db'.users) by {
      forall id | id in UserIds(db.users) ensures id in UserIds(db'.users) {
        var u :| u in db.users && u.id == id;
        var k :| 0 <= k < n && db.users[k] == u;
        assert db'.users[k] == u;
      }
    }
    assert UsernamesUnique(db') by {
      forall i, j | 0 <= i < j < |db'.users| ensures db'.users[i].username != db'.users[j].username {
        if j == n {
          assert db.users[i] in db.users;
        }
      }
    }
  }

  /** Registration keeps the invariant: the new id is fresh, and the 409
      check on the name as the column stores it keeps usernames unique. */
  lemma RegistrationKeepsValid(db: Db, user: AuthServices.UserCreate, salt: nat)
    requires Valid(db)
    requires AuthEndpoints.HandlerRegistration(db, user, salt).Success?
    ensures Valid(AuthEndpoints.HandlerRegistration(db, user, salt).value.0)
  {
    var (db', created) := AuthEndpoints.HandlerRegistration(db, user, salt).value;
    var row := UserRow(created.id, created.username, Hash(user.password, salt).value);
    AppendUserKeepsValid(db, row);
    assert db' == db.(users := db.users + [row], nextUserId := db.nextUserId + 1);
  }

  lemma {:induction false} CountOfFreshPost(db: Db)
    requires Valid(db)
    ensures CountFor(db.likes, db.nextPostId) == 0
  {
    forall x | x in db.likes ensures x.postId != db.nextPostId {
      var p :| p in db.posts && p.id == x.postId;
      var k :| 0 <= k < |db.posts| && db.posts[k] == p;
    }
    CountOfUnreferencedPost(db.likes, db.nextPostId);
  }

  function AppendPost(db: Db, row: PostRow): Db {
    db.(posts := db.posts + [row], nextPostId := db.nextPostId + 1)
  }

  lemma AppendPostKeys(db: Db, row: PostRow)
    requires KeysWellFormed(db) && row.id == db.nextPostId
    ensures KeysWellFormed(AppendPost(db, row))
  {
    var posts' := AppendPost(db, row).posts;
    assert forall i :: 0 <= i < |db.posts| ==> posts'[i] == db.posts[i];
  }

  lemma AppendPostReferences(db: Db, row: PostRow)
    requires ReferencesResolve(db) && row.authorId in UserIds(db.users)
    ensures ReferencesResolve(AppendPost(db, row))
  {
    var posts' := AppendPost(db, row).posts;
    assert forall i :: 0 <= i < |db.posts| ==> posts'[i] == db.posts[i];
    forall id | id in PostIds(db.posts) ensures id in PostIds(posts') {
      var p :| p in db.posts && p.id == id;
      assert p in posts';
    }
  }

  lemma AppendPostLedger(db: Db, row: PostRow)
    requires LedgerConsistent(db) && row.likeCount == 0 && CountFor(db.likes, row.id) == 0
    ensures LedgerConsistent(AppendPost(db, row))
  {
    var posts' := AppendPost(db, row).posts;
    assert forall i :: 0 <= i < |db.posts| ==> posts'[i] == db.posts[i];
  }

  /** Appending a post row under the next id, by an existing author and
      with counter 0, keeps the invariant. */
  lemma {:induction false} AppendPostKeepsValid(db: Db, row: PostRow)
    requires Valid(db)
    requires row.id == db.nextPostId && row.authorId in UserIds(db.users) && row.likeCount == 0
    ensures Valid(AppendPost(db, row))
  {
    CountOfFreshPost(db);
    AppendPostKeys(db, row);
    AppendPostReferences(db, row);
    AppendPostLedger(db, row);
  }

  /** Storing a post keeps the invariant: its id is fresh, its author
      exists, and its counter 0 matches the rows, since no like row can
      name an id the sequence has not handed out yet. */
  lemma AddPostKeepsValid(db: Db, post: PostCreate, authorId: int)
    requires PostRepo.Add(db, post, authorId).Success?
    ensures Valid(db) ==> Valid(PostRepo.Add(db, post, authorId).value.0)
  {
    if Valid(db) {
      var (db', created) := PostRepo.Add(db, post, authorId).value;
      AppendPostKeepsValid(db, created);
      assert db' == AppendPost(db, created);
    }
  }

  lemma {:induction false} DropPostKeepsIdsUnique(posts: seq<PostRow>, postId: int)
    requires PostIdsUnique(posts)
    ensures PostIdsUnique(PostRepo.DropPost(posts, postId))
    decreases |posts|
  {
    if |posts| > 0 {
      var tail := posts[1..];
      DropPostKeepsIdsUnique(tail, postId);
      var rest := PostRepo.DropPost(tail, postId);
      var r := PostRepo.DropPost(posts, postId);
      if posts[0].id != postId {
        assert r == [posts[0]] + rest;
        forall a, b | 0 <= a < b < |r| ensures r[a].id != r[b].id {
          assert r[b] == rest[b - 1] && r[b] in rest;
          if a == 0 {
            var k :| 0 <= k < |tail| && tail[k] == r[b];
            assert posts[k + 1] == r[b];
          } else {
            assert r[a] == rest[a - 1];
            assert rest[a - 1].id != rest[b - 1].id;
          }
        }
      } else {
        assert r == rest;
      }
    }
  }

  lemma DeletePostKeysAndReferences(db: Db, postId: int)
    requires KeysWellFormed(db) && ReferencesResolve(db)
    ensures KeysWellFormed(PostRepo.Delete(db, postId)) && ReferencesResolve(PostRepo.Delete(db, postId))
  {
    var db' := PostRepo.Delete(db, postId);
    DropPostKeepsIdsUnique(db.posts, postId);
    assert db'.posts == PostRepo.DropPost(db.posts, postId);
    forall i | 0 <= i < |db'.posts|
      ensures 1 <= db'.posts[i].id < db'.nextPostId
      ensures db'.posts[i].authorId in UserIds(db'.users)
    {
      var p := db'.posts[i];
      assert p in db.posts;
      var k :| 0 <= k < |db.posts| && db.posts[k] == p;
    }
  }

  lemma DeletePostLedger(db: Db, postId: int)
    requires LedgerConsistent(db)
    ensures LedgerConsistent(PostRepo.Delete(db, postId))
  {
    var db' := PostRepo.Delete(db, postId);
    assert db'.likes == WithoutPost(db.likes, postId);
    KeepDistinct(db.likes, NotOnPost(postId));
    forall i | 0 <= i < |db'.posts|
      ensures db'.posts[i].likeCount == CountFor(db'.likes, db'.posts[i].id)
    {
      var p := db'.posts[i];
      assert p in db.posts && p.id != postId;
      var k :| 0 <= k < |db.posts| && db.posts[k] == p;
      CountKeepsUntouchedPost(db.likes, NotOnPost(postId), p.id);
    }
  }

  /** Deleting a post (and, by cascade, its likes) keeps the invariant. */
  lemma DeletePostKeepsValid(db: Db, postId: int)
    requires Valid(db)
    ensures Valid(PostRepo.Delete(db, postId))
  {
    DeletePostKeysAndReferences(db, postId);
    DeletePostLedger(db, postId);
  }

  /** Without the toggle's check, inserting a like for a pair already
      liked succeeds and leaves the pair twice in the ledger. */
  lemma {:induction false} AddLikeOnLikedPairDuplicates(db: Db, postId: int, userId: int)
    requires Valid(db)
    requires LikeRow(userId, postId) in db.likes
    ensures PostRepo.AddLike(db, postId, userId).Success?
    ensures !Distinct(PostRepo.AddLike(db, postId, userId).value.0.likes)
  {
    var r := LikeRow(userId, postId);
    var db' := PostRepo.AddLike(db, postId, userId).value.0;
    DistinctCopies(db.likes, r);
    assert multiset(db'.likes)[r] == 2;
    DistinctIffAtMostOnce(db'.likes);
  }

  /** Without the toggle's check, removing a like that is not there still
      lowers the counter, which then disagrees with the rows. */
  lemma {:induction false} RemoveLikeOnUnlikedMiscounts(db: Db, postId: int, userId: int)
    requires Valid(db)
    requires LikeRow(userId, postId) !in db.likes && postId in PostIds(db.posts)
    ensures PostRepo.RemoveLike(db, postId, userId).Success?
    ensures !LedgerConsistent(PostRepo.RemoveLike(db, postId, userId).value.0)
  {
    var r := LikeRow(userId, postId);
    var db' := PostRepo.RemoveLike(db, postId, userId).value.0;
    KeepAllIsIdentity(db.likes, OtherThan(r));
    assert db'.likes == db.likes;
    var p :| p in db.posts && p.id == postId;
    var k :| 0 <= k < |db.posts| && db.posts[k] == p;
    assert db'.posts[k].likeCount == db.posts[k].likeCount - 1;
  }

  /** Without the registration's check, inserting a taken username
      succeeds: the table itself does not keep usernames unique. */
  lemma {:induction false} UserAddOfTakenNameDuplicates(db: Db, user: HashedUserCreate)
    requires UserRepo.Lookup(db, user.username).Some?
    requires |user.username| <= UsernameMaxLength && NulFree(user.username)
    ensures UserRepo.Add(db, user).Success?
    ensures !UsernamesUnique(UserRepo.Add(db, user).value.0)
  {
    var db' := UserRepo.Add(db, user).value.0;
    var u :| u in db.users && u.username == user.username;
    var k :| 0 <= k < |db.users| && db.users[k] == u;
    assert db'.users[k] == db.users[k];
  }

  /** As written, the 409 check compares the name as sent: a taken name of
      100 characters followed by a space passes it, is stored cut to the
      taken name, and leaves two users with one name. The intended check
      refuses it. */
  lemma PaddedNameDuplicatesAsWritten(db: Db, name: string, password: string, salt: nat)
    requires UserRepo.Lookup(db, name).Some?
    requires |name| == UsernameMaxLength && NulFree(name) && PasswordAccepted(password)
    requires forall u :: u in db.users ==> |u.username| <= UsernameMaxLength
    ensures var user := AuthServices.UserCreate(name + " ", password);
      && AuthEndpoints.HandlerRegistrationAsWritten(db, user, salt).Success?
      && AuthEndpoints.HandlerRegistrationAsWritten(db, user, salt).value.1.username == name
      && !UsernamesUnique(AuthEndpoints.HandlerRegistrationAsWritten(db, user, salt).value.0)
      && AuthEndpoints.HandlerRegistration(db, user, salt) == Failure(Http.UsernameTaken)
  {
    var padded := name + " ";
    assert NulFree(padded) by {
      assert forall k :: 0 <= k < |padded| ==> padded[k] == if k < |name| then name[k] else ' ';
    }
    assert padded[..UsernameMaxLength] == name;
    assert SpacesFrom(padded, UsernameMaxLength);
    assert UserRepo.StoredUsername(padded) == name;
    assert UserRepo.Lookup(db, padded).None?;
  }

  /** Likes by `userIds`, one toggle after the other, stopping at the first failure. */
  function LikeAll(db: Db, postId: int, userIds: seq<int>): Result<Db, DbError>
    decreases |userIds|
  {
    if |userIds| == 0 then Success(db)
    else
      var step :- PostServices.LikePost(db, postId, userIds[0]);
      LikeAll(step.0, postId, userIds[1..])
  }

  /** N different existing users who had not liked a post, liking it in
      turn, raise its row count, and so its counter, by exactly N. */
  lemma {:induction false} DistinctLikersAddUp(db: Db, postId: int, userIds: seq<int>)
    requires Valid(db) && postId in PostIds(db.posts)
    requires forall i :: 0 <= i < |userIds| ==> userIds[i] in UserIds(db.users)
    requires forall i :: 0 <= i < |userIds| ==> LikeRow(userIds[i], postId) !in db.likes
    requires forall i, j :: 0 <= i < j < |userIds| ==> userIds[i] != userIds[j]
    ensures LikeAll(db, postId, userIds).Success?
    ensures Valid(LikeAll(db, postId, userIds).value)
    ensures CountFor(LikeAll(db, postId, userIds).value.likes, postId) == CountFor(db.likes, postId) + |userIds|
    decreases |userIds|
  {
    if |userIds| > 0 {
      ToggleOn(db, postId, userIds[0]);
      var db1 := PostServices.LikePost(db, postId, userIds[0]).value.0;
      var rest := userIds[1..];
      forall i | 0 <= i < |rest| ensures LikeRow(rest[i], postId) !in db1.likes {
        assert rest[i] == userIds[i + 1];
      }
      DistinctLikersAddUp(db1, postId, rest);
    }
  }

  /** The rows of `users` other than user `userId`. */
  function UsersOtherThan(users: seq<UserRow>, userId: int): (r: seq<UserRow>)
    ensures forall u :: u in r <==> u in users && u.id != userId
  {
    if |users| == 0 then []
    else (if users[0].id == userId then [] else [users[0]]) + UsersOtherThan(users[1..], userId)
  }

  /** The rows of `posts` not written by user `userId`. */
  function PostsNotBy(posts: seq<PostRow>, userId: int): (r: seq<PostRow>)
    ensures forall p :: p in r <==> p in posts && p.authorId != userId
  {
    if |posts| == 0 then []
    else (if posts[0].authorId == userId then [] else [posts[0]]) + PostsNotBy(posts[1..], userId)
  }

  function NotOnAny(postIds: set<int>): LikeRow -> bool {
    (x: LikeRow) => x.postId !in postIds
  }

  /** Deleting a user row as the schema's cascades carry it out: the
      user's posts go (posts.user_id ON DELETE CASCADE), and so do the
      user's like rows and the like rows of those posts (both foreign
      keys of like_users cascade). No counter is touched. The backend has
      no operation that deletes users. */
  function DeleteUser(db: Db, userId: int): (db': Db)
    ensures forall u :: u in db'.users <==> u in db.users && u.id != userId
    ensures forall p :: p in db'.posts <==> p in db.posts && p.authorId != userId
    ensures forall x :: x in db'.likes <==>
      && x in db.likes && x.userId != userId
      && !(exists p :: p in db.posts && p.authorId == userId && p.id == x.postId)
    ensures db'.nextUserId == db.nextUserId && db'.nextPostId == db.nextPostId
  {
    var gone := set p | p in db.posts && p.authorId == userId :: p.id;
    db.(users := UsersOtherThan(db.users, userId),
        posts := PostsNotBy(db.posts, userId),
        likes := Keep(WithoutUser(db.likes, userId), NotOnAny(gone)))
  }

  lemma {:induction false} CountKeepAtMost(likes: seq<LikeRow>, keep: LikeRow -> bool, postId: int)
    ensures CountFor(Keep(likes, keep), postId) <= CountFor(likes, postId)
    ensures (exists x :: x in likes && x.postId == postId && !keep(x)) ==>
      CountFor(Keep(likes, keep), postId) < CountFor(likes, postId)
    decreases |likes|
  {
    if |likes| > 0 {
      CountKeepAtMost(likes[1..], keep, postId);
      KeepStep(likes, keep);
      if exists x :: x in likes && x.postId == postId && !keep(x) {
        var x :| x in likes && x.postId == postId && !keep(x);
        if x != likes[0] {
          assert x in likes[1..];
        }
      }
    }
  }

  /** Deleting a user who liked another user's post leaves that post's
      counter above its row count: the cascade removes the like row but
      no trigger lowers the counter. */
  lemma {:induction false} DeleteUserLeavesStaleCounter(db: Db, userId: int, post: PostRow)
    requires Valid(db)
    requires post in db.posts && post.authorId != userId
    requires LikeRow(userId, post.id) in db.likes
    ensures post in DeleteUser(db, userId).posts
    ensures post.likeCount > CountFor(DeleteUser(db, userId).likes, post.id)
  {
    var gone := set p | p in db.posts && p.authorId == userId :: p.id;
    var k :| 0 <= k < |db.posts| && db.posts[k] == post;
    CountKeepAtMost(db.likes, NotByUser(userId), post.id);
    CountKeepAtMost(WithoutUser(db.likes, userId), NotOnAny(gone), post.id);
  }
}

=== FILE: crypto.dfy ===
/** Abstract stand-ins for the two cryptographic libraries the backend
    calls: bcrypt (through passlib) for passwords and HS256 JSON Web
    Tokens (through jose). Neither algorithm is modelled; each is replaced
    by a symbolic construction that has exactly the property the backend
    relies on. */
module Crypto {
  import opened Prelude
  import Utf8

  /** bcrypt reads at most this many bytes of the password. */
  const BcryptMaxBytes := 72

  /** The bytes bcrypt hashes: the UTF-8 encoding of the password, cut to
      its first 72 bytes. passlib's default (`truncate_error=False`) drops
      the rest silently. */
  function BcryptKey(plain: string): (key: seq<Utf8.Byte>)
    ensures |key| <= BcryptMaxBytes
    ensures |Utf8.Encode(plain)| <= BcryptMaxBytes ==> key == Utf8.Encode(plain)
    ensures |Utf8.Encode(plain)| > BcryptMaxBytes ==> key == Utf8.Encode(plain)[..BcryptMaxBytes]
  {
    var bytes := Utf8.Encode(plain);
    if |bytes| <= BcryptMaxBytes then bytes else bytes[..BcryptMaxBytes]
  }

  /** passlib refuses longer passwords (`MAX_PASSWORD_SIZE`). bcrypt's handler
      checks the limit again after encoding the password, so it counts UTF-8
      bytes; the earlier check on characters is implied by that one. */
  const MaxPasswordSize := 4096

  /** What passlib's `hash` and `verify` raise instead of answering. */
  datatype CryptoError = PasswordSizeError | NullPasswordError

  /** A password passlib's bcrypt accepts: at most 4096 bytes once UTF-8
      encoded, and no NUL character. */
  predicate PasswordAccepted(plain: string) {
    |Utf8.Encode(plain)| <= MaxPasswordSize && NulFree(plain)
  }

  /** A stored bcrypt string: the salt it embeds and its checksum. The
      checksum is symbolic; only `Verify` looks at it, and it does so only
      by recomputing a hash, as bcrypt's verify does. */
  datatype PasswordHash = Bcrypt(salt: nat, checksum: seq<Utf8.Byte>)

  /** `pwd_context.hash(plain)`. The salt is drawn at random by the
      library; here it is a parameter. A password passlib refuses raises;
      otherwise the result accepts exactly the accepted passwords whose
      first 72 UTF-8 bytes are those of `plain`. */
  function Hash(plain: string, salt: nat): (r: Result<PasswordHash, CryptoError>)
    ensures r.Success? <==> PasswordAccepted(plain)
    ensures r.Success? ==> r.value.salt == salt
    ensures r.Success? ==> forall other :: PasswordAccepted(other) ==>
      Verify(other, r.value) == Success(BcryptKey(other) == BcryptKey(plain))
  {
    if |Utf8.Encode(plain)| > MaxPasswordSize then Failure(PasswordSizeError)
    else if !NulFree(plain) then Failure(NullPasswordError)
    else Success(Bcrypt(salt, BcryptKey(plain)))
  }

  /** `pwd_context.verify(plain, hashed)`: refuse the password as `hash`
      does, else re-hash under the embedded salt and compare. */
  function Verify(plain: string, hashed: PasswordHash): (r: Result<bool, CryptoError>)
    ensures r.Success? <==> PasswordAccepted(plain)
  {
    if |Utf8.Encode(plain)| > MaxPasswordSize then Failure(PasswordSizeError)
    else if !NulFree(plain) then Failure(NullPasswordError)
    else Success(Bcrypt(hashed.salt, BcryptKey(plain)) == hashed)
  }

  /** The size limit counts bytes, not characters: a password of more than
      2048 two-byte characters is refused, even within 4096 characters. */
  lemma SizeCountsBytes(plain: string, salt: nat, hashed: PasswordHash)
    requires forall i :: 0 <= i < |plain| ==> 0x80 <= plain[i] as int < 0x800
    requires MaxPasswordSize / 2 < |plain|
    ensures !PasswordAccepted(plain)
    ensures Hash(plain, salt) == Failure(PasswordSizeError)
    ensures Verify(plain, hashed) == Failure(PasswordSizeError)
  {
    Utf8.EncodeTwoByteLength(plain);
  }

  /** Passwords that fit in 72 bytes are told apart exactly. */
  lemma ShortPasswordsVerifyExactly(plain: string, other: string, salt: nat)
    requires |Utf8.Encode(plain)| <= BcryptMaxBytes && |Utf8.Encode(other)| <= BcryptMaxBytes
    ensures NulFree(plain) && NulFree(other) ==> Verify(other, Hash(plain, salt).value) == Success(other == plain)
  {
    if NulFree(plain) && NulFree(other) && BcryptKey(other) == BcryptKey(plain) {
      Utf8.EncodeInjective(other, plain);
    }
  }

  /** Past the 72nd byte nothing counts: two passwords passlib accepts
      that share a prefix of at least 72 bytes verify against each other's
      hash; a password it refuses raises instead. */
  lemma TailBeyondKeyIgnored(prefix: string, tail: string, otherTail: string, salt: nat)
    requires BcryptMaxBytes <= |Utf8.Encode(prefix)|
    ensures PasswordAccepted(prefix + tail) && PasswordAccepted(prefix + otherTail) ==>
      Verify(prefix + otherTail, Hash(prefix + tail, salt).value) == Success(true)
    ensures PasswordAccepted(prefix + tail) && !PasswordAccepted(prefix + otherTail) ==>
      Verify(prefix + otherTail, Hash(prefix + tail, salt).value).Failure?
  {
    Utf8.EncodeAppend(prefix, tail);
    Utf8.EncodeAppend(prefix, otherTail);
    assert Utf8.Encode(prefix + tail)[..BcryptMaxBytes] == Utf8.Encode(prefix)[..BcryptMaxBytes];
    assert Utf8.Encode(prefix + otherTail)[..BcryptMaxBytes] == Utf8.Encode(prefix)[..BcryptMaxBytes];
  }

  /** The claims a token carries. Tokens issued by the backend always
      hold both; a decoded payload may lack either. */
  datatype Claims = Claims(exp: Option<int>, username: Option<string>)

  /** A bearer token string: either a well-formed compact JWS whose
      signature was made with `key`, or any other text. */
  datatype Jwt = Signed(claims: Claims, key: string) | Garbled(raw: string)

  datatype JwtError = InvalidSignature | MalformedToken

  /** `jwt.encode(claims, key)` */
  function Encode(claims: Claims, key: string): (t: Jwt)
    ensures Decode(t, key) == Success(claims)
    ensures forall other :: Decode(t, other).Success? <==> other == key
  {
    Signed(claims, key)
  }

  /** `jwt.decode(token, key)`: succeeds only for a token signed under `key`. */
  function Decode(t: Jwt, key: string): Result<Claims, JwtError> {
    match t
    case Garbled(_) => Failure(MalformedToken)
    case Signed(claims, signer) => if signer == key then Success(claims) else Failure(InvalidSignature)
  }
}

=== FILE: http.dfy ===
/** The HTTP errors the handlers raise: a status code, the `detail` text,
    and whether the `WWW-Authenticate: Bearer` header is attached. */
module Http {

  const BadRequest := 400
  const Unauthorized := 401
  const Forbidden := 403
  const NotFound := 404
  const Conflict := 409
  const UnprocessableEntity := 422
  const InternalServerError := 500

  datatype HttpError = HttpError(status: int, detail: string, bearerChallenge: bool)

  /** Raised by both login handlers for an unknown user and for a wrong password alike. */
  const IncorrectCredentials := HttpError(Unauthorized, "Incorrect username or password", true)

  /** Raised by `get_current_user` when no token accompanies the request. */
  const AccessDenied := HttpError(Unauthorized, "Access denied", true)

  /** Raised by `get_current_user` for undecodable tokens, tokens without a
      username and usernames that are not stored. */
  const CouldNotValidate := HttpError(Unauthorized, "Could not validate credentials", true)

  /** Raised by `get_current_user` once the clock has reached the token's `exp`. */
  const AccessExpired := HttpError(Unauthorized, "Access expired", true)

  const UsernameTaken := HttpError(Conflict, "Username already registered", false)

  const PostMissing := HttpError(NotFound, "Post does not exist", false)

  const NotAuthor := HttpError(Forbidden, "You are not an author of this post", false)

  const FieldRequired := HttpError(BadRequest, "One of the fields is required", false)

  /** The framework's answer to a path parameter that fails its `ge=1` bound. */
  const InvalidPathParameter := HttpError(UnprocessableEntity, "ensure this value is greater than or equal to 1", false)

  /** An exception nothing catches: the framework answers 500. */
  function Internal(reason: string): HttpError {
    HttpError(InternalServerError, reason, false)
  }
}

=== FILE: ledger.dfy ===
/** The `like_users` table seen as a ledger: counting rows per post,
    the deletions the repository and the cascades perform, and the
    "no pair twice" property the application is relied upon to keep. */
module Ledger {
  import opened Schema

  /** Number of like rows for `postId`: `SELECT count(*) ... WHERE post_id = postId`. */
  function CountFor(likes: seq<LikeRow>, postId: int): nat {
    if |likes| == 0 then 0
    else (if likes[0].postId == postId then 1 else 0) + CountFor(likes[1..], postId)
  }

  /** The users with a like row on `postId`. */
  function LikersOf(likes: seq<LikeRow>, postId: int): set<int> {
    set x | x in likes && x.postId == postId :: x.userId
  }

  /** No row occurs twice, which makes the table a set of pairs. */
  predicate Distinct(likes: seq<LikeRow>) {
    |likes| == 0 || (likes[0] !in likes[1..] && Distinct(likes[1..]))
  }

  /** The rows `keep` accepts, in table order: what a `DELETE` of the others leaves. */
  function Keep(likes: seq<LikeRow>, keep: LikeRow -> bool): (out: seq<LikeRow>)
    ensures forall x :: x in out <==> x in likes && keep(x)
    ensures |out| <= |likes|
  {
    if |likes| == 0 then []
    else (if keep(likes[0]) then [likes[0]] else []) + Keep(likes[1..], keep)
  }

  /** Kept rows stay in table order: keeping from a table split in two is
      keeping from the first part, then from the second. */
  lemma {:induction false} KeepConcat(a: seq<LikeRow>, b: seq<LikeRow>, keep: LikeRow -> bool)
    ensures Keep(a + b, keep) == Keep(a, keep) + Keep(b, keep)
    decreases |a|
  {
    if |a| == 0 {
      assert a + b == b;
    } else {
      assert (a + b)[1..] == a[1..] + b;
      KeepConcat(a[1..], b, keep);
    }
  }

  /** `DELETE FROM like_users WHERE post_id = r.postId AND user_id = r.userId`:
      every copy of the pair goes. */
  function WithoutPair(likes: seq<LikeRow>, r: LikeRow): seq<LikeRow> {
    Keep(likes, OtherThan(r))
  }

  /** The cascade of deleting post `postId`. */
  function WithoutPost(likes: seq<LikeRow>, postId: int): seq<LikeRow> {
    Keep(likes, NotOnPost(postId))
  }

  /** The cascade of deleting user `userId`. */
  function WithoutUser(likes: seq<LikeRow>, userId: int): seq<LikeRow> {
    Keep(likes, NotByUser(userId))
  }

  function OtherThan(r: LikeRow): LikeRow -> bool {
    (x: LikeRow) => x != r
  }

  function NotOnPost(postId: int): LikeRow -> bool {
    (x: LikeRow) => x.postId != postId
  }

  function NotByUser(userId: int): LikeRow -> bool {
    (x: LikeRow) => x.userId != userId
  }

  /** Distinctness is exactly "every pair occurs at most once". */
  lemma {:induction false} DistinctIffAtMostOnce(likes: seq<LikeRow>)
    ensures Distinct(likes) <==> forall x :: multiset(likes)[x] <= 1
    decreases |likes|
  {
    if |likes| > 0 {
      var h, t := likes[0], likes[1..];
      assert likes == [h] + t;
      assert multiset(likes) == multiset{h} + multiset(t);
      DistinctIffAtMostOnce(t);
      if Distinct(likes) {
        forall x ensures multiset(likes)[x] <= 1 {
          if x == h {
            assert x !in multiset(t);
          }
        }
      }
      if forall x :: multiset(likes)[x] <= 1 {
        assert multiset(likes)[h] <= 1;
        assert h !in t;
        forall x ensures multiset(t)[x] <= 1 {
          assert multiset(likes)[x] <= 1;
        }
      }
    }
  }

  /** In a distinct ledger the row count of a post is the number of users liking it. */
  lemma {:induction false} CountIsNumberOfLikers(likes: seq<LikeRow>, postId: int)
    requires Distinct(likes)
    ensures CountFor(likes, postId) == |LikersOf(likes, postId)|
    decreases |likes|
  {
    if |likes| == 0 {
      assert LikersOf(likes, postId) == {};
    } else {
      var h, t := likes[0], likes[1..];
      assert likes == [h] + t;
      CountIsNumberOfLikers(t, postId);
      if h.postId == postId {
        assert LikersOf(likes, postId) == LikersOf(t, postId) + {h.userId};
        forall x | x in t && x.postId == postId
          ensures x.userId != h.userId
        {
          assert x != h;
        }
      } else {
        assert LikersOf(likes, postId) == LikersOf(t, postId);
      }
    }
  }

  lemma {:induction false} CountAppend(likes: seq<LikeRow>, r: LikeRow, postId: int)
    ensures CountFor(likes + [r], postId) == CountFor(likes, postId) + (if r.postId == postId then 1 else 0)
    decreases |likes|
  {
    if |likes| == 0 {
      assert likes + [r] == [r];
    } else {
      assert (likes + [r])[1..] == likes[1..] + [r];
      CountAppend(likes[1..], r, postId);
    }
  }

  /** Dropping only rows of other posts leaves a post's count alone. */
  lemma {:induction false} CountKeepsUntouchedPost(likes: seq<LikeRow>, keep: LikeRow -> bool, postId: int)
    requires forall x :: x in likes && x.postId == postId ==> keep(x)
    ensures CountFor(Keep(likes, keep), postId) == CountFor(likes, postId)
    decreases |likes|
  {
    if |likes| > 0 {
      assert likes[0] in likes;
      assert forall x :: x in likes[1..] ==> x in likes;
      CountKeepsUntouchedPost(likes[1..], keep, postId);
      KeepStep(likes, keep);
    }
  }

  /** Deleting a pair takes from its post's count exactly the copies of that pair. */
  lemma {:induction false} CountWithoutPair(likes: seq<LikeRow>, r: LikeRow)
    ensures CountFor(WithoutPair(likes, r), r.postId) == CountFor(likes, r.postId) - multiset(likes)[r]
    decreases |likes|
  {
    if |likes| > 0 {
      var h, t := likes[0], likes[1..];
      assert likes == [h] + t;
      assert multiset(likes) == multiset{h} + multiset(t);
      CountWithoutPair(t, r);
      assert CountFor(t, r.postId) >= multiset(t)[r] by {
        CountAtLeastCopies(t, r);
      }
      KeepStep(likes, OtherThan(r));
    }
  }

  lemma {:induction false} CountAtLeastCopies(likes: seq<LikeRow>, r: LikeRow)
    ensures CountFor(likes, r.postId) >= multiset(likes)[r]
    decreases |likes|
  {
    if |likes| > 0 {
      assert likes == [likes[0]] + likes[1..];
      assert multiset(likes) == multiset{likes[0]} + multiset(likes[1..]);
      CountAtLeastCopies(likes[1..], r);
    }
  }

  /** Deleting a post's rows leaves none for it. */
  lemma {:induction false} CountWithoutPost(likes: seq<LikeRow>, postId: int)
    ensures CountFor(WithoutPost(likes, postId), postId) == 0
    decreases |likes|
  {
    if |likes| > 0 {
      CountWithoutPost(likes[1..], postId);
      KeepStep(likes, NotOnPost(postId));
    }
  }

  lemma {:induction false} KeepDistinct(likes: seq<LikeRow>, keep: LikeRow -> bool)
    requires Distinct(likes)
    ensures Distinct(Keep(likes, keep))
    decreases |likes|
  {
    if |likes| > 0 {
      KeepDistinct(likes[1..], keep);
      KeepStep(likes, keep);
    }
  }

  /** One unfolding of Keep, stated on the head and the tail of the result. */
  lemma KeepStep(likes: seq<LikeRow>, keep: LikeRow -> bool)
    requires |likes| > 0
    ensures keep(likes[0]) ==> Keep(likes, keep) == [likes[0]] + Keep(likes[1..], keep)
    ensures !keep(likes[0]) ==> Keep(likes, keep) == Keep(likes[1..], keep)
  {
  }

  lemma {:induction false} AppendDistinct(likes: seq<LikeRow>, r: LikeRow)
    requires Distinct(likes) && r !in likes
    ensures Distinct(likes + [r])
    decreases |likes|
  {
    if |likes| > 0 {
      assert (likes + [r])[1..] == likes[1..] + [r];
      AppendDistinct(likes[1..], r);
    }
  }

  /** Keep only removes the rows it rejects, copy for copy. */
  lemma {:induction false} KeepMultiset(likes: seq<LikeRow>, keep: LikeRow -> bool, x: LikeRow)
    ensures multiset(Keep(likes, keep))[x] == if keep(x) then multiset(likes)[x] else 0
    decreases |likes|
  {
    if |likes| > 0 {
      assert likes == [likes[0]] + likes[1..];
      assert multiset(likes) == multiset{likes[0]} + multiset(likes[1..]);
      KeepMultiset(likes[1..], keep, x);
      var k := if keep(likes[0]) then [likes[0]] else [];
      assert multiset(k + Keep(likes[1..], keep)) == multiset(k) + multiset(Keep(likes[1..], keep));
    }
  }

  /** A pair that is absent stays absent: deleting it from a ledger without it changes nothing. */
  lemma {:induction false} KeepAllIsIdentity(likes: seq<LikeRow>, keep: LikeRow -> bool)
    requires forall x :: x in likes ==> keep(x)
    ensures Keep(likes, keep) == likes
    decreases |likes|
  {
    if |likes| > 0 {
      assert likes[0] in likes;
      assert forall x :: x in likes[1..] ==> x in likes;
      KeepAllIsIdentity(likes[1..], keep);
      assert [likes[0]] + likes[1..] == likes;
    }
  }
}

=== FILE: post_dependencies.dfy ===
/** The dependencies the post endpoints share: loading the post named in
    the path, and the author check that guards deletion. */
module PostDependencies {
  import opened Prelude
  import opened Schema
  import opened Http
  import PostRepo
  import PostServices

  /** `get_post_by_id_from_path`: the path id must be at least 1; an id
      that names no post is a 404; an existing post comes back unchanged. */
  function GetPostByIdFromPath(db: Db, postId: int): (r: Result<PostRow, HttpError>)
    ensures postId < 1 ==> r == Failure(InvalidPathParameter)
    ensures postId >= 1 && postId !in PostIds(db.posts) ==> r == Failure(PostMissing)
    ensures r.Success? <==> postId >= 1 && postId in PostIds(db.posts)
    ensures r.Success? ==> r.value in db.posts && r.value.id == postId
  {
    if postId < 1 then Failure(InvalidPathParameter)
    else match PostRepo.GetById(db, postId)
      case Failure(_) => Failure(PostMissing)
      case Success(post) => Success(post)
  }

  /** `check_post_modification_permissions`: only the author may modify. */
  function CheckPostModificationPermissions(post: PostRow, user: UserBase): (r: Result<(), HttpError>)
    ensures r.Success? <==> post.authorId == user.id
    ensures r.Failure? ==> r.error == NotAuthor
  {
    if !PostServices.CheckUserCanModifyComment(post, user) then Failure(NotAuthor) else Success(())
  }
}

=== FILE: post_endpoints.dfy ===
/** The post endpoints: listing, reading, creating, liking and deleting.
    The order of the checks follows the order in which the web framework
    resolves each endpoint's dependencies: an exception a dependency raises
    ends the request at once, while a path parameter that fails validation
    is reported (422) only after the remaining dependencies have run. */
module PostEndpoints {
  import opened Prelude
  import opened Crypto
  import opened Schema
  import opened Http
  import opened AuthServices
  import opened AuthDependency
  import opened PostDependencies
  import opened PostServices
  import PostRepo
  import Consistency
  import Ledger

  /** A failed statement surfaces as an unhandled exception. */
  function DbFailure(e: DbError): HttpError {
    Internal("database error")
  }

  /** `handler_get_all_posts`: page 0 and limit 5 unless given. */
  function HandlerGetAllPosts(db: Db, page: Option<int>, limit: Option<int>): (r: Result<seq<PostRow>, HttpError>)
    ensures page.None? && limit.None? ==> r.Success? && |r.value| <= DefaultLimit && r.value <= db.posts
    ensures r.Success? <==> GetAllPosts(db, page, limit).Success?
    ensures r.Success? ==> r.value == GetAllPosts(db, page, limit).value
  {
    match GetAllPosts(db, page, limit)
    case Failure(e) => Failure(DbFailure(e))
    case Success(posts) => Success(posts)
  }

  /** `handler_get_post`: the stored post with that id. */
  function HandlerGetPost(db: Db, postId: int): (r: Result<PostRow, HttpError>)
    ensures r.Success? <==> postId >= 1 && postId in PostIds(db.posts)
    ensures r.Success? ==> r.value in db.posts && r.value.id == postId
    ensures postId >= 1 && postId !in PostIds(db.posts) ==> r == Failure(PostMissing)
  {
    var post :- GetPostByIdFromPath(db, postId);
    match PostRepo.GetById(db, post.id)
    case Failure(e) => Failure(DbFailure(e))
    case Success(p) => Success(p)
  }

  /** What a successful creation yields: the new database, the stored post
      and the writes scheduled for after the response. */
  datatype Created = Created(db: Db, post: PostRow, tasks: seq<WriteTask>)

  /** `handler_create_post`. The current user is resolved first. Then a
      request with neither text nor link and an empty file list is a 400.
      Uploaded files are saved under generated names, the link preview is
      fetched, and the post is stored with the ", "-joined paths and the
      current user as author. A missing file list (`None`) is not the empty
      list: it passes the 400 check and then fails when it is iterated. */
  method HandlerCreatePost(
    db: Db, token: Jwt, settings: Settings, now: int,
    text: Option<string>, link: Option<string>, files: Option<seq<UploadFile>>,
    uids: seq<string>, fetch: Fetch, imageFetch: ImageFetch, previewUid: string)
    returns (r: Result<Created, HttpError>)
    requires files.Some? ==> |uids| == |files.value|
    ensures GetCurrentUser(db, token, settings, now).Failure? ==> r == Failure(GetCurrentUser(db, token, settings, now).error)
    ensures GetCurrentUser(db, token, settings, now).Success? && !Truthy(text) && !Truthy(link) && files == Some([]) ==>
      r == Failure(FieldRequired)
    ensures r == Failure(FieldRequired) ==> !Truthy(text) && !Truthy(link) && files == Some([])
    ensures files.None? ==> r.Failure?
    ensures r.Success? ==>
      var user := GetCurrentUser(db, token, settings, now).value;
      var post := r.value.post;
      && files.Some?
      && post.authorId == user.id
      && StoreColumn(text, TextMaxLength) == Success(post.text)
      && StoreColumn(link, LinkMaxLength) == Success(post.link)
      && post.likeCount == 0
      && post.id == db.nextPostId
      && r.value.db.posts == db.posts + [post]
      && r.value.db.likes == db.likes && r.value.db.users == db.users
      && (exists paths: seq<string> ::
            && |paths| == |files.value|
            && (forall i :: 0 <= i < |paths| ==> paths[i] == MediaPath(user.id, files.value[i].contentType, uids[i]))
            && StoreColumn(Some(Join(paths)), FilesMaxLength) == Success(post.files))
    ensures r.Success? && Consistency.Valid(db) ==> Consistency.Valid(r.value.db)
  {
    var auth := GetCurrentUser(db, token, settings, now);
    if auth.Failure? {
      return Failure(auth.error);
    }
    var user := auth.value;
    if !Truthy(text) && !Truthy(link) && files == Some([]) {
      return Failure(FieldRequired);
    }
    if files.None? {
      return Failure(Internal("'NoneType' object is not iterable"));
    }
    r := SaveAndStore(db, user, text, link, files.value, uids, fetch, imageFetch, previewUid);
  }

  /** The part of `handler_create_post` after the checks: save the files,
      fetch the preview, store the post under the current user. */
  method SaveAndStore(
    db: Db, user: UserBase, text: Option<string>, link: Option<string>, files: seq<UploadFile>,
    uids: seq<string>, fetch: Fetch, imageFetch: ImageFetch, previewUid: string)
    returns (r: Result<Created, HttpError>)
    requires |uids| == |files|
    ensures r.Failure? ==> r.error.status == InternalServerError
    ensures r.Success? ==>
      var post := r.value.post;
      && post.authorId == user.id
      && StoreColumn(text, TextMaxLength) == Success(post.text)
      && StoreColumn(link, LinkMaxLength) == Success(post.link)
      && post.likeCount == 0
      && post.id == db.nextPostId
      && r.value.db.posts == db.posts + [post]
      && r.value.db.likes == db.likes && r.value.db.users == db.users
      && (exists paths: seq<string> ::
            && |paths| == |files|
            && (forall i :: 0 <= i < |paths| ==> paths[i] == MediaPath(user.id, files[i].contentType, uids[i]))
            && StoreColumn(Some(Join(paths)), FilesMaxLength) == Success(post.files))
    ensures r.Success? && Consistency.Valid(db) ==> Consistency.Valid(r.value.db)
  {
    var paths: seq<string> := [];
    var mediaTasks: seq<WriteTask> := [];
    if files != [] {
      paths, mediaTasks := SaveFiles(user, files, uids);
    }
    var preview := GetContentByLink(link, user, fetch, imageFetch, previewUid);
    if preview.Failure? {
      return Failure(preview.error);
    }
    var postCreate := PostCreate(text, Some(Join(paths)), link, preview.value.0);
    var stored := PostRepo.Add(db, postCreate, user.id);
    if stored.Failure? {
      return Failure(DbFailure(stored.error));
    }
    var (db', post) := stored.value;
    assert StoreColumn(Some(Join(paths)), FilesMaxLength) == Success(post.files) && |paths| == |files|;
    Consistency.AddPostKeepsValid(db, postCreate, user.id);
    return Success(Created(db', post, mediaTasks + preview.value.1));
  }

  /** `handler_add_like`: the caller must be authenticated (checked first)
      and the post must exist; then the like of the current user on that
      post is toggled and the post's new counter returned. */
  function HandlerAddLike(db: Db, token: Jwt, settings: Settings, now: int, postId: int): (r: Result<(Db, int), HttpError>)
    ensures GetCurrentUser(db, token, settings, now).Failure? ==> r == Failure(GetCurrentUser(db, token, settings, now).error)
    ensures GetCurrentUser(db, token, settings, now).Success? ==>
      && (postId < 1 ==> r == Failure(InvalidPathParameter))
      && (postId >= 1 && postId !in PostIds(db.posts) ==> r == Failure(PostMissing))
      && (postId >= 1 && postId in PostIds(db.posts) ==>
            var toggled := LikePost(db, postId, GetCurrentUser(db, token, settings, now).value.id);
            && (toggled.Success? ==> r == Success(toggled.value))
            && (toggled.Failure? ==> r.Failure? && r.error.status == InternalServerError))
  {
    var user :- GetCurrentUser(db, token, settings, now);
    var post :- GetPostByIdFromPath(db, postId);
    match LikePost(db, post.id, user.id)
    case Failure(e) => Failure(DbFailure(e))
    case Success(result) => Success(result)
  }

  /** `handler_delete_post`: deletes the post, and its likes with it, only
      for its author. A missing post is reported before the caller is
      authenticated; an invalid id only after. */
  function HandlerDeletePost(db: Db, token: Jwt, settings: Settings, now: int, postId: int): (r: Result<Db, HttpError>)
    ensures postId >= 1 && postId !in PostIds(db.posts) ==> r == Failure(PostMissing)
    ensures (postId < 1 || postId in PostIds(db.posts)) && GetCurrentUser(db, token, settings, now).Failure? ==>
      r == Failure(GetCurrentUser(db, token, settings, now).error)
    ensures postId < 1 && GetCurrentUser(db, token, settings, now).Success? ==> r == Failure(InvalidPathParameter)
    ensures r.Success? <==>
      && postId >= 1
      && GetCurrentUser(db, token, settings, now).Success?
      && PostRepo.GetById(db, postId).Success?
      && PostRepo.GetById(db, postId).value.authorId == GetCurrentUser(db, token, settings, now).value.id
    ensures r.Success? ==> r.value == PostRepo.Delete(db, postId)
    ensures r.Failure? && GetCurrentUser(db, token, settings, now).Success? && postId >= 1 && postId in PostIds(db.posts) ==>
      r == Failure(NotAuthor)
  {
    if postId >= 1 && postId !in PostIds(db.posts) then Failure(PostMissing)
    else
      var user :- GetCurrentUser(db, token, settings, now);
      var post :- GetPostByIdFromPath(db, postId);
      var _ :- CheckPostModificationPermissions(post, user);
      Success(PostRepo.Delete(db, post.id))
  }

  /** Through the endpoint, a like keeps the database consistent, and the
      counter it answers with is the number of distinct users who now
      like the post. */
  lemma HandlerAddLikeKeepsValid(db: Db, token: Jwt, settings: Settings, now: int, postId: int)
    requires Consistency.Valid(db)
    ensures HandlerAddLike(db, token, settings, now, postId).Success? ==>
      var (db', count) := HandlerAddLike(db, token, settings, now, postId).value;
      && Consistency.Valid(db')
      && count == |Ledger.LikersOf(db'.likes, postId)|
  {
    var r := HandlerAddLike(db, token, settings, now, postId);
    if r.Success? {
      var user := GetCurrentUser(db, token, settings, now).value;
      Consistency.LikePostToggles(db, postId, user.id);
      Ledger.CountIsNumberOfLikers(r.value.0.likes, postId);
    }
  }

  /** Through the endpoint, deleting a post keeps the database consistent. */
  lemma HandlerDeletePostKeepsValid(db: Db, token: Jwt, settings: Settings, now: int, postId: int)
    requires Consistency.Valid(db)
    ensures HandlerDeletePost(db, token, settings, now, postId).Success? ==>
      Consistency.Valid(HandlerDeletePost(db, token, settings, now, postId).value)
  {
    Consistency.DeletePostKeepsValid(db, postId);
  }
}

=== FILE: post_repo.dfy ===
/** `PostRepository`: the statements on `posts` and `like_users`, each an
    atomic transition of the database (every multi-statement method runs
    in one transaction, so a failure leaves the database as it was). */
module PostRepo {
  import opened Prelude
  import opened Schema
  import opened Ledger

  /** The first row with this id (the primary key makes it the only one). */
  function FindPost(posts: seq<PostRow>, id: int): (r: Option<PostRow>)
    ensures r.Some? ==> r.value in posts && r.value.id == id
    ensures r.None? <==> id !in PostIds(posts)
  {
    if |posts| == 0 then None
    else if posts[0].id == id then Some(posts[0])
    else FindPost(posts[1..], id)
  }

  /** `UPDATE posts SET like_count = like_count + delta WHERE id = postId` */
  function ShiftLikeCount(posts: seq<PostRow>, postId: int, delta: int): (r: seq<PostRow>)
    ensures |r| == |posts|
    ensures forall i :: 0 <= i < |r| ==> r[i].id == posts[i].id
    ensures PostIds(r) == PostIds(posts)
  {
    var r := seq(|posts|, i requires 0 <= i < |posts| =>
      if posts[i].id == postId then posts[i].(likeCount := posts[i].likeCount + delta) else posts[i]);
    assert forall p :: p in r ==> exists i :: 0 <= i < |r| && r[i] == p;
    assert forall p :: p in posts ==> exists i :: 0 <= i < |posts| && posts[i] == p;
    r
  }

  /** `get_all(page, limit)`: `LIMIT limit OFFSET page * limit`. The rows
      at positions [page*limit, page*limit + limit) that exist, in table
      order; a negative limit or offset is refused by the database. */
  function GetAll(db: Db, page: int, limit: int): (r: Result<seq<PostRow>, DbError>)
    ensures r.Failure? <==> limit < 0 || page * limit < 0
    ensures r.Success? ==>
      && |r.value| <= limit
      && |r.value| == (if page * limit >= |db.posts| then 0
                       else if page * limit + limit <= |db.posts| then limit
                       else |db.posts| - page * limit)
      && forall k :: 0 <= k < |r.value| ==> r.value[k] == db.posts[page * limit + k]
  {
    if limit < 0 || page * limit < 0 then Failure(NegativeLimitOrOffset)
    else
      var offset := page * limit;
      if offset >= |db.posts| then Success([])
      else if offset + limit <= |db.posts| then Success(db.posts[offset..offset + limit])
      else Success(db.posts[offset..])
  }

  /** Pages 0 to n - 1 of size `limit`, one after the other. */
  function Pages(db: Db, limit: nat, n: nat): seq<PostRow>
    decreases n
  {
    if n == 0 then []
    else
      assert (n - 1) * limit >= 0;
      Pages(db, limit, n - 1) + GetAll(db, n - 1, limit).value
  }

  /** Paging with a fixed limit walks the table in order without gaps or
      repeats: the first n pages are exactly the first n * limit rows. */
  lemma {:induction false} PagesTile(db: Db, limit: nat, n: nat)
    ensures Pages(db, limit, n) == db.posts[..if n * limit <= |db.posts| then n * limit else |db.posts|]
    decreases n
  {
    if n > 0 {
      PagesTile(db, limit, n - 1);
      var offset := (n - 1) * limit;
      assert offset + limit == n * limit;
      assert 0 <= offset <= n * limit;
      if offset < |db.posts| {
        var end := if n * limit <= |db.posts| then n * limit else |db.posts|;
        assert GetAll(db, n - 1, limit).value == db.posts[offset..end];
        assert db.posts[..offset] + db.posts[offset..end] == db.posts[..end];
      }
    }
  }

  /** `get_by_id`: the stored post, or EntityDoesNotExist. */
  function GetById(db: Db, postId: int): (r: Result<PostRow, DbError>)
    ensures r.Success? <==> postId in PostIds(db.posts)
    ensures r.Success? ==> r.value in db.posts && r.value.id == postId
    ensures r.Failure? ==> r.error == EntityDoesNotExist
  {
    match FindPost(db.posts, postId)
    case None => Failure(EntityDoesNotExist)
    case Some(p) => Success(p)
  }

  /** `get_users_like_post`: the user id of a like row for the pair, or None. */
  function GetUsersLikePost(db: Db, postId: int, userId: int): (r: Option<int>)
    ensures r.Some? <==> LikeRow(userId, postId) in db.likes
    ensures r.Some? ==> r.value == userId
  {
    if LikeRow(userId, postId) in db.likes then Some(userId) else None
  }

  /** `add`: inserts a post under the next id with like_count 0 and the
      given author, each text column in the form its VARCHAR column stores.
      A value the column refuses, a preview JSONB refuses, or an author
      that is not a user makes the insert fail. */
  function Add(db: Db, post: PostCreate, authorId: int): (r: Result<(Db, PostRow), DbError>)
    ensures r.Failure? <==>
      || StoreColumn(post.text, TextMaxLength).Failure?
      || StoreColumn(post.files, FilesMaxLength).Failure?
      || StoreColumn(post.link, LinkMaxLength).Failure?
      || !PreviewStorable(post.preview)
      || authorId !in UserIds(db.users)
    ensures r.Success? ==>
      var (db', created) := r.value;
      && created == PostRow(db.nextPostId,
                            StoreColumn(post.text, TextMaxLength).value,
                            StoreColumn(post.files, FilesMaxLength).value,
                            StoreColumn(post.link, LinkMaxLength).value,
                            post.preview, authorId, 0)
      && db'.posts == db.posts + [created]
      && db'.nextPostId == db.nextPostId + 1
      && db'.users == db.users && db'.likes == db.likes && db'.nextUserId == db.nextUserId
  {
    var text :- StoreColumn(post.text, TextMaxLength);
    var files :- StoreColumn(post.files, FilesMaxLength);
    var link :- StoreColumn(post.link, LinkMaxLength);
    if !PreviewStorable(post.preview) then Failure(NulInText)
    else if authorId !in UserIds(db.users) then Failure(ForeignKeyViolation)
    else
      var created := PostRow(db.nextPostId, text, files, link, post.preview, authorId, 0);
      Success((db.(posts := db.posts + [created], nextPostId := db.nextPostId + 1), created))
  }

  /** `add` as written: after the insert, the returned row is rebuilt as
      the response schema `Post`, whose `text`, `files` and `link` are plain
      strings and whose `preview` is a dictionary. A post without text,
      files or link, or whose preview is JSON null, is refused there, inside
      the transaction, so the insert is rolled back and the request fails. */
  function AddAsWritten(db: Db, post: PostCreate, authorId: int): (r: Result<(Db, PostRow), DbError>)
    ensures r.Failure? <==>
      Add(db, post, authorId).Failure? || post.text.None? || post.files.None? || post.link.None? || post.preview.None?
    ensures r.Success? ==> r == Add(db, post, authorId)
  {
    var stored :- Add(db, post, authorId);
    if post.text.None? || post.files.None? || post.link.None? || post.preview.None? then Failure(RowNotAPost)
    else Success(stored)
  }

  /** A post with text and no link (the body's default) is refused as
      written although the insert itself is accepted. */
  lemma PostWithoutLinkRefusedAsWritten(db: Db, text: string, files: string, authorId: int)
    requires |text| <= TextMaxLength && |files| <= FilesMaxLength && authorId in UserIds(db.users)
    requires NulFree(text) && NulFree(files)
    ensures var post := PostCreate(Some(text), Some(files), None, Some(Message("null")));
      && Add(db, post, authorId).Success?
      && AddAsWritten(db, post, authorId) == Failure(RowNotAPost)
  {
  }

  /** `add_like`: one new row for the pair, the post's counter one higher,
      and that new counter returned. Both ids must exist (foreign keys).
      Nothing else changes. */
  function AddLike(db: Db, postId: int, userId: int): (r: Result<(Db, int), DbError>)
    ensures r.Success? <==> userId in UserIds(db.users) && postId in PostIds(db.posts)
    ensures r.Failure? ==> r.error == ForeignKeyViolation
    ensures r.Success? ==>
      var (db', count) := r.value;
      && multiset(db'.likes) == multiset(db.likes) + multiset{LikeRow(userId, postId)}
      && |db'.posts| == |db.posts|
      && (forall i :: 0 <= i < |db.posts| ==>
            db'.posts[i] == if db.posts[i].id == postId
                            then db.posts[i].(likeCount := db.posts[i].likeCount + 1)
                            else db.posts[i])
      && count == FindPost(db.posts, postId).value.likeCount + 1
      && db'.users == db.users && db'.nextUserId == db.nextUserId && db'.nextPostId == db.nextPostId
  {
    if userId !in UserIds(db.users) || postId !in PostIds(db.posts) then Failure(ForeignKeyViolation)
    else
      var posts' := ShiftLikeCount(db.posts, postId, 1);
      var found := FindPost(posts', postId);
      FindShifted(db.posts, postId, 1);
      Success((db.(likes := db.likes + [LikeRow(userId, postId)], posts := posts'), found.value.likeCount))
  }

  /** `remove_like`: every row for the pair deleted, the post's counter one
      lower (whether or not a row was there), and that counter returned.
      For a post that does not exist the update returns no counter and the
      transaction fails. Nothing else changes. */
  function RemoveLike(db: Db, postId: int, userId: int): (r: Result<(Db, int), DbError>)
    ensures r.Success? <==> postId in PostIds(db.posts)
    ensures r.Failure? ==> r.error == NullLikeCount
    ensures r.Success? ==>
      var (db', count) := r.value;
      && LikeRow(userId, postId) !in db'.likes
      && (forall x :: x != LikeRow(userId, postId) ==> multiset(db'.likes)[x] == multiset(db.likes)[x])
      && |db'.posts| == |db.posts|
      && (forall i :: 0 <= i < |db.posts| ==>
            db'.posts[i] == if db.posts[i].id == postId
                            then db.posts[i].(likeCount := db.posts[i].likeCount - 1)
                            else db.posts[i])
      && count == FindPost(db.posts, postId).value.likeCount - 1
      && db'.users == db.users && db'.nextUserId == db.nextUserId && db'.nextPostId == db.nextPostId
  {
    if postId !in PostIds(db.posts) then Failure(NullLikeCount)
    else
      var pair := LikeRow(userId, postId);
      var likes' := WithoutPair(db.likes, pair);
      var posts' := ShiftLikeCount(db.posts, postId, -1);
      FindShifted(db.posts, postId, -1);
      forall x | x != pair
        ensures multiset(likes')[x] == multiset(db.likes)[x]
      {
        KeepMultiset(db.likes, OtherThan(pair), x);
      }
      Success((db.(likes := likes', posts := posts'), FindPost(posts', postId).value.likeCount))
  }

  /** `delete`: the post's row goes, and with it (ON DELETE CASCADE) every
      like row that references it. Deleting a missing id changes nothing. */
  function Delete(db: Db, postId: int): (db': Db)
    ensures PostIds(db'.posts) == PostIds(db.posts) - {postId}
    ensures forall p :: p in db'.posts <==> p in db.posts && p.id != postId
    ensures forall x :: x in db'.likes <==> x in db.likes && x.postId != postId
    ensures db'.users == db.users && db'.nextUserId == db.nextUserId && db'.nextPostId == db.nextPostId
  {
    db.(posts := DropPost(db.posts, postId), likes := WithoutPost(db.likes, postId))
  }

  /** The rows of `posts` other than `postId`, in order. */
  function DropPost(posts: seq<PostRow>, postId: int): (r: seq<PostRow>)
    ensures forall p :: p in r <==> p in posts && p.id != postId
    ensures PostIds(r) == PostIds(posts) - {postId}
  {
    if |posts| == 0 then []
    else (if posts[0].id == postId then [] else [posts[0]]) + DropPost(posts[1..], postId)
  }

  /** The counter the update returns is the shifted counter of the first row with the id. */
  lemma {:induction false} FindShifted(posts: seq<PostRow>, postId: int, delta: int)
    requires postId in PostIds(posts)
    ensures FindPost(ShiftLikeCount(posts, postId, delta), postId).Some?
    ensures FindPost(ShiftLikeCount(posts, postId, delta), postId).value.likeCount
         == FindPost(posts, postId).value.likeCount + delta
    decreases |posts|
  {
    var shifted := ShiftLikeCount(posts, postId, delta);
    assert shifted[0].id == posts[0].id;
    if posts[0].id != postId {
      var tail := posts[1..];
      assert shifted[1..] == ShiftLikeCount(tail, postId, delta);
      assert posts == [posts[0]] + tail;
      assert PostIds(posts) == {posts[0].id} + PostIds(tail);
      FindShifted(tail, postId, delta);
    }
  }
}

=== FILE: post_services.dfy ===
/** The post services: listing, the like toggle, the author check,
    naming of uploaded media, and the link preview. Network fetches and
    uuid4 are inputs; file writes are returned as scheduled tasks. */
module PostServices {
  import opened Prelude
  import opened Schema
  import opened Http
  import PostRepo
  import Utf8

  const DefaultPage := 0
  const DefaultLimit := 5

  /** `get_all_posts`: page 0 and limit 5 unless given; the repository's page. */
  function GetAllPosts(db: Db, page: Option<int>, limit: Option<int>): (r: Result<seq<PostRow>, DbError>)
    ensures page.None? && limit.None? ==>
      r.Success? && r.value == db.posts[..if |db.posts| < DefaultLimit then |db.posts| else DefaultLimit]
    ensures r == PostRepo.GetAll(db, page.GetOr(DefaultPage), limit.GetOr(DefaultLimit))
  {
    PostRepo.GetAll(db, if page.Some? then page.value else DefaultPage, if limit.Some? then limit.value else DefaultLimit)
  }

  /** `like_post`: remove the like when a row for the pair is found,
      insert it otherwise. The branch tests the truthiness of the user id
      the lookup returns, so a user id of 0 would be taken as "not liked". */
  function LikePost(db: Db, postId: int, userId: int): (r: Result<(Db, int), DbError>)
    ensures LikeRow(userId, postId) in db.likes && userId != 0 ==> r == PostRepo.RemoveLike(db, postId, userId)
    ensures LikeRow(userId, postId) !in db.likes || userId == 0 ==> r == PostRepo.AddLike(db, postId, userId)
  {
    var found := PostRepo.GetUsersLikePost(db, postId, userId);
    if found.Some? && found.value != 0 then PostRepo.RemoveLike(db, postId, userId)
    else PostRepo.AddLike(db, postId, userId)
  }

  /** `check_user_can_modify_comment` */
  function CheckUserCanModifyComment(post: PostRow, user: UserBase): (ok: bool)
    ensures ok <==> post.authorId == user.id
  {
    post.authorId == user.id
  }

  /** An uploaded file: its declared content type and its bytes. */
  datatype UploadFile = UploadFile(contentType: string, data: seq<Utf8.Byte>)

  /** A write the response schedules to run after it is sent. */
  datatype WriteTask = WriteMedia(path: string, file: UploadFile) | WritePreviewMedia(path: string)

  const ImageDir: string := "app/media/image/"
  const VideoDir: string := "app/media/video/"
  const ImageExt: string := ".png"
  const VideoExt: string := ".mp4"

  /** `app/media/image/{user_id}_{uid}.png` */
  function ImagePath(userId: int, uid: string): string {
    ImageDir + IntToDecimal(userId) + "_" + uid + ImageExt
  }

  /** `app/media/video/{user_id}_{uid}.mp4` */
  function VideoPath(userId: int, uid: string): string {
    VideoDir + IntToDecimal(userId) + "_" + uid + VideoExt
  }

  /** Where an upload is stored: images (content type starting with
      "image") as .png under the image folder, anything else as .mp4
      under the video folder; the name joins the user id and a uuid. */
  function MediaPath(userId: int, contentType: string, uid: string): (path: string)
    ensures StartsWith(path, ImageDir) <==> StartsWith(contentType, "image")
    ensures StartsWith(path, VideoDir) <==> !StartsWith(contentType, "image")
    ensures StartsWith(contentType, "image") ==> path == ImagePath(userId, uid)
    ensures !StartsWith(contentType, "image") ==> path == VideoPath(userId, uid)
  {
    var prefix := IntToDecimal(userId) + "_" + uid;
    if StartsWith(contentType, "image") then
      assert ImageDir + prefix + ImageExt == ImageDir + (prefix + ImageExt);
      assert (ImageDir + (prefix + ImageExt))[..|VideoDir|] != VideoDir by {
        assert (ImageDir + (prefix + ImageExt))[10] == 'i';
      }
      ImageDir + prefix + ImageExt
    else
      assert VideoDir + prefix + VideoExt == VideoDir + (prefix + VideoExt);
      assert (VideoDir + (prefix + VideoExt))[..|ImageDir|] != ImageDir by {
        assert (VideoDir + (prefix + VideoExt))[10] == 'v';
      }
      VideoDir + prefix + VideoExt
  }

  /** `save_files`: one path per file, in input order, and one scheduled
      write per file. `uids` are the uuid4 values drawn, one per file. */
  method SaveFiles(user: UserBase, files: seq<UploadFile>, uids: seq<string>) returns (paths: seq<string>, tasks: seq<WriteTask>)
    requires |uids| == |files|
    ensures |paths| == |files| && |tasks| == |files|
    ensures forall i :: 0 <= i < |files| ==> paths[i] == MediaPath(user.id, files[i].contentType, uids[i])
    ensures forall i :: 0 <= i < |files| ==> tasks[i] == WriteMedia(paths[i], files[i])
  {
    paths, tasks := [], [];
    var i := 0;
    while i < |files|
      invariant 0 <= i <= |files|
      invariant |paths| == i && |tasks| == i
      invariant forall k :: 0 <= k < i ==> paths[k] == MediaPath(user.id, files[k].contentType, uids[k])
      invariant forall k :: 0 <= k < i ==> tasks[k] == WriteMedia(paths[k], files[k])
    {
      var fileName := MediaPath(user.id, files[i].contentType, uids[i]);
      ghost var before := paths;
      tasks := tasks + [WriteMedia(fileName, files[i])];
      paths := paths + [fileName];
      assert forall k :: 0 <= k < i ==> paths[k] == before[k];
      i := i + 1;
    }
  }

  /** Distinct uuids give distinct stored paths, whatever the content types. */
  lemma DistinctUidsDistinctPaths(userId: int, typeA: string, uidA: string, typeB: string, uidB: string)
    requires uidA != uidB
    ensures MediaPath(userId, typeA, uidA) != MediaPath(userId, typeB, uidB)
  {
    var a, b := MediaPath(userId, typeA, uidA), MediaPath(userId, typeB, uidB);
    if StartsWith(typeA, "image") == StartsWith(typeB, "image") {
      var dir := if StartsWith(typeA, "image") then ImageDir else VideoDir;
      var ext := if StartsWith(typeA, "image") then ImageExt else VideoExt;
      var head := dir + IntToDecimal(userId) + "_";
      assert a == head + uidA + ext;
      assert b == head + uidB + ext;
      if |uidA| == |uidB| {
        assert a[|head|..|head| + |uidA|] == uidA;
        assert b[|head|..|head| + |uidB|] == uidB;
      } else {
        assert |a| != |b|;
      }
    } else {
      assert StartsWith(a, ImageDir) != StartsWith(b, ImageDir);
    }
  }

  /** A comma-free uuid gives a comma-free path, so the joined `files`
      column splits back into exactly the saved paths. */
  lemma MediaPathHasNoComma(userId: int, contentType: string, uid: string)
    requires NoComma(uid)
    ensures NoComma(MediaPath(userId, contentType, uid))
  {
    var prefix := IntToDecimal(userId) + "_" + uid;
    NoCommaAppend(IntToDecimal(userId), "_");
    NoCommaAppend(IntToDecimal(userId) + "_", uid);
    if StartsWith(contentType, "image") {
      NoCommaAppend(ImageDir, prefix);
      NoCommaAppend(ImageDir + prefix, ImageExt);
    } else {
      NoCommaAppend(VideoDir, prefix);
      NoCommaAppend(VideoDir + prefix, VideoExt);
    }
  }

  lemma NoCommaAppend(a: string, b: string)
    requires NoComma(a) && NoComma(b)
    ensures NoComma(a + b)
  {
    forall k | 0 <= k < |a + b| ensures (a + b)[k] != ',' {
      if k >= |a| {
        assert (a + b)[k] == b[k - |a|];
      }
    }
  }

  /** A `<meta>` tag found in the page; its `content` attribute may be absent. */
  datatype Meta = Meta(content: Option<string>)

  /** The three tags the preview looks for, as the HTML parser finds them:
      `meta[property=og:description]`, the first tag with
      `name=description`, and `meta[property=og:image]`. */
  datatype Page = Page(ogDescription: Option<Meta>, namedDescription: Option<Meta>, ogImage: Option<Meta>)

  const NotFoundText: string := "Not found"

  /** `_parse_content`: the description from og:description, else from the
      description tag, else "Not found"; the image from og:image, else
      "Not found". A tag without `content` yields None. */
  function ParseContent(page: Page): (r: (Option<string>, Option<string>))
    ensures page.ogDescription.Some? ==> r.0 == page.ogDescription.value.content
    ensures page.ogDescription.None? && page.namedDescription.Some? ==> r.0 == page.namedDescription.value.content
    ensures page.ogDescription.None? && page.namedDescription.None? ==> r.0 == Some(NotFoundText)
    ensures page.ogImage.Some? ==> r.1 == page.ogImage.value.content
    ensures page.ogImage.None? ==> r.1 == Some(NotFoundText)
  {
    var content := if page.ogDescription.Some? then page.ogDescription else page.namedDescription;
    var description := if content.Some? then content.value.content else Some(NotFoundText);
    var image := if page.ogImage.Some? then page.ogImage.value.content else Some(NotFoundText);
    (description, image)
  }

  /** What fetching the link gave: an URL the client rejects, some other
      failure (connection, timeout), or a response. */
  datatype Fetch = InvalidUrl | FetchFailed | Response(status: int, page: Page)

  /** What fetching the preview image gave. */
  datatype ImageFetch = ImageInvalidUrl | ImageFetchFailed | ImageResponse(status: int)

  const HttpScheme: string := "http"

  /** `get_content_by_link`. Returns the preview to store (None when the
      coroutine falls through without returning) and the writes it
      schedules; an uncaught failure is a 500. */
  function GetContentByLink(link: Option<string>, user: UserBase, fetch: Fetch, imageFetch: ImageFetch, uid: string)
    : (r: Result<(Option<Preview>, seq<WriteTask>), HttpError>)
    ensures !Truthy(link) || !StartsWith(link.value, HttpScheme) ==> r == Success((Some(Message("null")), []))
    ensures r.Success? && r.value.1 != [] ==>
      && r.value.1 == [WritePreviewMedia(ImagePath(user.id, uid))]
      && r.value.0.Some? && r.value.0.value.Described? && r.value.0.value.file == ImagePath(user.id, uid)
    ensures Truthy(link) && StartsWith(link.value, HttpScheme) && fetch.Response? && fetch.status == 200
            && ParseContent(fetch.page).1.Some? && !StartsWith(ParseContent(fetch.page).1.value, HttpScheme) ==>
      r == Success((Some(Described(ParseContent(fetch.page).0, NotFoundText)), []))
    ensures Truthy(link) && StartsWith(link.value, HttpScheme) && fetch.Response? && fetch.status != 200 ==>
      r == Success((None, []))
    ensures r.Failure? ==> r.error.status == InternalServerError
  {
    if !Truthy(link) || !StartsWith(link.value, HttpScheme) then Success((Some(Message("null")), []))
    else match fetch
      case InvalidUrl => Success((Some(Message("Invalid URL")), []))
      case FetchFailed => Failure(Internal("client error while fetching the link"))
      case Response(status, page) =>
        if status != 200 then Success((None, []))
        else
          var (description, image) := ParseContent(page);
          if image.None? then Failure(Internal("'NoneType' object has no attribute 'startswith'"))
          else if StartsWith(image.value, HttpScheme) then
            match imageFetch
            case ImageInvalidUrl => Success((Some(Message("Invalid URL")), []))
            case ImageFetchFailed => Failure(Internal("client error while fetching the image"))
            case ImageResponse(imageStatus) =>
              if imageStatus == 200 then
                var fileName := ImagePath(user.id, uid);
                Success((Some(Described(description, fileName)), [WritePreviewMedia(fileName)]))
              else Success((None, []))
          else Success((Some(Described(description, NotFoundText)), []))
  }

  /** Without an http link nothing is fetched: the outcome does not depend
      on what the network would have answered. */
  lemma NoFetchWithoutHttpLink(link: Option<string>, user: UserBase, f1: Fetch, i1: ImageFetch, f2: Fetch, i2: ImageFetch, uid: string)
    requires !Truthy(link) || !StartsWith(link.value, HttpScheme)
    ensures GetContentByLink(link, user, f1, i1, uid) == GetContentByLink(link, user, f2, i2, uid)
  {
  }
}

=== FILE: prelude.dfy ===
/** Small shared vocabulary: optional values, results with failure
    propagation, and the few string operations the blog backend uses
    (prefix tests, decimal rendering of ids, ", "-joining and splitting). */
module Prelude {

  /** Python's `None` or a present value. */
  datatype Option<+T> = None | Some(value: T) {

    /** The value, or `default` in its absence: a parameter default. */
    function GetOr(default: T): T {
      if Some? then value else default
    }
  }

  /** A value or the error that replaced it; usable with `:-`. */
  datatype Result<+T, +E> = Success(value: T) | Failure(error: E) {

    predicate IsFailure() {
      Failure?
    }

    function PropagateFailure<U>(): Result<U, E>
      requires Failure?
    {
      Failure(error)
    }

    function Extract(): T
      requires Success?
    {
      value
    }
  }

  /** `s.startswith(prefix)` */
  predicate StartsWith(s: string, prefix: string) {
    |prefix| <= |s| && s[..|prefix|] == prefix
  }

  /** No NUL character in the string. */
  predicate NulFree(s: string) {
    '\0' !in s
  }

  /** Python truthiness of an optional string: `None` and `""` are falsy. */
  predicate Truthy(s: Option<string>) {
    s.Some? && s.value != ""
  }

  function DigitChar(d: nat): (c: char)
    requires d < 10
    ensures '0' <= c <= '9'
  {
    "0123456789"[d]
  }

  /** Decimal rendering of a natural number, as `str(n)` does. */
  function NatToDecimal(n: nat): (r: string)
    ensures 1 <= |r|
    ensures forall k :: 0 <= k < |r| ==> '0' <= r[k] <= '9'
    decreases n
  {
    if n < 10 then [DigitChar(n)] else NatToDecimal(n / 10) + [DigitChar(n % 10)]
  }

  /** Decimal rendering of an integer, with a leading '-' when negative. */
  function IntToDecimal(i: int): (r: string)
    ensures 1 <= |r|
    ensures forall k :: 0 <= k < |r| ==> r[k] == '-' || '0' <= r[k] <= '9'
  {
    if i < 0 then "-" + NatToDecimal(-i) else NatToDecimal(i)
  }

  const Separator: string := ", "

  /** `", ".join(parts)` */
  function Join(parts: seq<string>): (r: string)
    ensures parts == [] ==> r == ""
    ensures |parts| == 1 ==> r == parts[0]
  {
    if |parts| == 0 then ""
    else if |parts| == 1 then parts[0]
    else parts[0] + Separator + Join(parts[1..])
  }

  predicate NoComma(s: string) {
    forall k :: 0 <= k < |s| ==> s[k] != ','
  }

  /** Position of the first ", " in `s`, or `|s|` when there is none. */
  function SeparatorIndex(s: string): (k: nat)
    ensures k <= |s|
    ensures k < |s| ==> k + 1 < |s| && s[k] == ',' && s[k + 1] == ' '
    ensures forall j :: 0 <= j < k && j + 1 < |s| ==> !(s[j] == ',' && s[j + 1] == ' ')
    decreases |s|
  {
    if |s| < 2 then |s|
    else if s[0] == ',' && s[1] == ' ' then 0
    else 1 + SeparatorIndex(s[1..])
  }

  /** `s.split(", ")`: the pieces between separators; "" splits to [""]. */
  function Split(s: string): (r: seq<string>)
    ensures 1 <= |r|
    decreases |s|
  {
    var k := SeparatorIndex(s);
    if k == |s| then [s] else [s[..k]] + Split(s[k + 2..])
  }

  lemma {:induction false} SeparatorIndexSkipsCommaFree(x: string, rest: string)
    requires NoComma(x)
    ensures SeparatorIndex(x + rest) == |x| + SeparatorIndex(rest)
    decreases |x|
  {
    if |x| == 0 {
      assert x + rest == rest;
    } else {
      assert (x + rest)[1..] == x[1..] + rest;
      SeparatorIndexSkipsCommaFree(x[1..], rest);
      assert x[0] != ',';
      if |rest| == 0 && |x| == 1 {
        assert x + rest == x;
      }
    }
  }

  /** Splitting at the first separator peels off a comma-free head. */
  lemma SplitStep(head: string, tail: string)
    requires NoComma(head)
    ensures Split(head + Separator + tail) == [head] + Split(tail)
  {
    var s := head + Separator + tail;
    assert s == head + (Separator + tail);
    SeparatorIndexSkipsCommaFree(head, Separator + tail);
    assert SeparatorIndex(s) == |head|;
    assert s[..|head|] == head;
    assert s[|head| + 2..] == tail;
  }

  /** Splitting undoes joining whenever no part contains a comma. */
  lemma {:induction false} SplitJoin(parts: seq<string>)
    requires forall i :: 0 <= i < |parts| ==> NoComma(parts[i])
    ensures Split(Join(parts)) == if parts == [] then [""] else parts
    decreases |parts|
  {
    if |parts| == 1 {
      SeparatorIndexSkipsCommaFree(parts[0], "");
      assert parts[0] + "" == parts[0];
    } else if |parts| > 1 {
      SplitStep(parts[0], Join(parts[1..]));
      SplitJoin(parts[1..]);
      assert [parts[0]] + parts[1..] == parts;
    }
  }
}

=== FILE: schema.dfy ===
/** The persisted state: the `users`, `posts` and `like_users` tables of
    the migration, and the record shapes the repositories hand out. */
module Schema {
  import opened Prelude
  import opened Crypto

  /** Column widths of the migration (see `Varchar` for what a longer value does). */
  const UsernameMaxLength := 100
  const TextMaxLength := 255
  const FilesMaxLength := 1000
  const LinkMaxLength := 255

  /** A row of `users`: BIGSERIAL id, username, bcrypt hash. */
  datatype UserRow = UserRow(id: int, username: string, hashedPassword: PasswordHash)

  /** The JSON preview of a link: `{"message": m}` or
      `{"description": d, "file": f}` (the description may be JSON null). */
  datatype Preview = Message(message: string) | Described(description: Option<string>, file: string)

  /** A row of `posts`. Every content column is nullable; `like_count`
      defaults to 0; `author_id` references `users`. */
  datatype PostRow = PostRow(
    id: int,
    text: Option<string>,
    files: Option<string>,
    link: Option<string>,
    preview: Option<Preview>,
    authorId: int,
    likeCount: int)

  /** A row of `like_users`. The table has no primary key and no unique
      constraint: the same pair may be inserted twice. */
  datatype LikeRow = LikeRow(userId: int, postId: int)

  /** The whole database. Table order is insertion order, which is also
      the order an unordered `SELECT` is taken to return. The two counters
      are the BIGSERIAL sequences: the next id each table hands out. */
  datatype Db = Db(
    users: seq<UserRow>,
    posts: seq<PostRow>,
    likes: seq<LikeRow>,
    nextUserId: int,
    nextPostId: int)

  /** Freshly migrated database: empty tables, both sequences at 1. */
  const EmptyDb := Db([], [], [], 1, 1)

  /** What a repository call raises: a failed statement, or (RowNotAPost)
      a stored row the response schema refuses. None of these is caught
      by the handlers; each ends the request with a 500. */
  datatype DbError =
    | ForeignKeyViolation
    | ValueTooLong
    | NegativeLimitOrOffset
    | EntityDoesNotExist
    | NullLikeCount
    | RowNotAPost
    | NulInText

  /** `UserBase`: what the API reveals about a user. */
  datatype UserBase = UserBase(id: int, username: string)

  /** `UserDB`: a user together with the stored hash. */
  datatype UserDb = UserDb(id: int, username: string, password: PasswordHash)

  /** `UserCreate` after `registration_user` has replaced the password by its hash. */
  datatype HashedUserCreate = HashedUserCreate(username: string, password: PasswordHash)

  /** `PostCreate`: the columns a new post is inserted with. */
  datatype PostCreate = PostCreate(
    text: Option<string>,
    files: Option<string>,
    link: Option<string>,
    preview: Option<Preview>)

  function UserIds(users: seq<UserRow>): set<int> {
    set u | u in users :: u.id
  }

  function PostIds(posts: seq<PostRow>): set<int> {
    set p | p in posts :: p.id
  }

  /** Every character from position `width` on is a space. */
  predicate SpacesFrom(s: string, width: nat) {
    forall k :: width <= k < |s| ==> s[k] == ' '
  }

  /** What PostgreSQL stores in a VARCHAR(width) column for a value: the
      value itself when it fits; the value cut to `width` when everything
      past the width is spaces; otherwise the statement fails. A NUL
      character is refused in any text value. */
  function Varchar(value: string, width: nat): (r: Result<string, DbError>)
    ensures r.Success? <==> NulFree(value) && SpacesFrom(value, width)
    ensures !NulFree(value) ==> r == Failure(NulInText)
    ensures r.Success? ==>
      && |r.value| <= width && r.value <= value && NulFree(r.value)
      && SpacesFrom(value, |r.value|)
      && (|value| <= width ==> r.value == value)
      && (|value| > width ==> |r.value| == width)
  {
    if !NulFree(value) then Failure(NulInText)
    else if |value| <= width then Success(value)
    else if SpacesFrom(value, width) then Success(value[..width])
    else Failure(ValueTooLong)
  }

  /** A nullable VARCHAR(width) column: NULL is stored as NULL. */
  function StoreColumn(value: Option<string>, width: nat): (r: Result<Option<string>, DbError>)
    ensures value.None? ==> r == Success(None)
    ensures value.Some? ==> (r.Success? <==> Varchar(value.value, width).Success?)
    ensures value.Some? && r.Success? ==> r.value == Some(Varchar(value.value, width).value)
  {
    if value.None? then Success(None)
    else
      var stored :- Varchar(value.value, width);
      Success(Some(stored))
  }

  /** The preview is stored as JSONB, which refuses the escape `\u0000`. */
  predicate PreviewStorable(preview: Option<Preview>) {
    match preview
    case None => true
    case Some(Message(m)) => NulFree(m)
    case Some(Described(d, f)) => (d.None? || NulFree(d.value)) && NulFree(f)
  }
}

=== FILE: user_repo.dfy ===
/** `UserRepository`: lookups and inserts on the `users` table. */
module UserRepo {
  import opened Prelude
  import opened Crypto
  import opened Schema

  /** The first row with this username; the table has no unique
      constraint on the column, so there may be several. */
  function FindByUsername(users: seq<UserRow>, username: string): (r: Option<UserRow>)
    ensures r.Some? ==> r.value in users && r.value.username == username
    ensures r.None? <==> forall u :: u in users ==> u.username != username
  {
    if |users| == 0 then None
    else if users[0].username == username then Some(users[0])
    else FindByUsername(users[1..], username)
  }

  /** The first row with this id. */
  function FindById(users: seq<UserRow>, id: int): (r: Option<UserRow>)
    ensures r.Some? ==> r.value in users && r.value.id == id
    ensures r.None? <==> id !in UserIds(users)
  {
    if |users| == 0 then None
    else if users[0].id == id then Some(users[0])
    else FindById(users[1..], id)
  }

  /** What `SELECT ... WHERE username = $1` finds: id, username and stored
      hash of a user with exactly that name (trailing spaces count), or
      None when no row carries it. */
  function Lookup(db: Db, username: string): (r: Option<UserDb>)
    ensures r.Some? <==> exists u :: u in db.users && u.username == username
    ensures r.Some? ==>
      && r.value.username == username
      && UserRow(r.value.id, r.value.username, r.value.password) in db.users
  {
    match FindByUsername(db.users, username)
    case None => None
    case Some(u) => Some(UserDb(u.id, u.username, u.hashedPassword))
  }

  /** `get_by_username`: the lookup; a name with a NUL character makes the
      query itself fail. */
  function GetByUsername(db: Db, username: string): (r: Result<Option<UserDb>, DbError>)
    ensures r.Failure? <==> !NulFree(username)
    ensures r.Failure? ==> r.error == NulInText
    ensures r.Success? ==> r.value == Lookup(db, username)
  {
    if !NulFree(username) then Failure(NulInText) else Success(Lookup(db, username))
  }

  /** The name the `username` column stores for a requested name: its
      VARCHAR(100) form when the column takes it, otherwise the name as given. */
  function StoredUsername(username: string): (stored: string)
    ensures NulFree(stored) <==> NulFree(username)
    ensures |username| <= UsernameMaxLength ==> stored == username
    ensures Varchar(username, UsernameMaxLength).Success? ==> stored == Varchar(username, UsernameMaxLength).value
  {
    match Varchar(username, UsernameMaxLength)
    case Success(s) => s
    case Failure(_) => username
  }

  /** `get_by_id`: id and username of the user with that id, or None. */
  function GetById(db: Db, id: int): (r: Option<UserBase>)
    ensures r.Some? <==> id in UserIds(db.users)
    ensures r.Some? ==> r.value.id == id && exists u :: u in db.users && u.id == id && u.username == r.value.username
  {
    match FindById(db.users, id)
    case None => None
    case Some(u) => Some(UserBase(u.id, u.username))
  }

  /** `add`: inserts one row under the next BIGSERIAL id and returns its id
      and the username as stored, never the password. A name the VARCHAR(100)
      column refuses makes the insert fail and leaves the table as it was;
      a name whose excess is only spaces is stored cut to 100 characters. */
  function Add(db: Db, user: HashedUserCreate): (r: Result<(Db, UserBase), DbError>)
    ensures r.Success? <==> Varchar(user.username, UsernameMaxLength).Success?
    ensures r.Success? ==>
      var (db', created) := r.value;
      && created == UserBase(db.nextUserId, StoredUsername(user.username))
      && |db'.users| == |db.users| + 1
      && db'.users[..|db.users|] == db.users
      && db'.users[|db.users|] == UserRow(created.id, created.username, user.password)
      && db'.nextUserId == db.nextUserId + 1
      && db'.posts == db.posts && db'.likes == db.likes && db'.nextPostId == db.nextPostId
      && Lookup(db', created.username).Some?
  {
    var stored :- Varchar(user.username, UsernameMaxLength);
    var row := UserRow(db.nextUserId, stored, user.password);
    var db' := db.(users := db.users + [row], nextUserId := db.nextUserId + 1);
    assert row in db'.users;
    Success((db', UserBase(row.id, row.username)))
  }

  /** A name no earlier row carries is found at the row appended for it. */
  lemma {:induction false} FindAppendedFresh(users: seq<UserRow>, row: UserRow)
    requires forall u :: u in users ==> u.username != row.username
    ensures FindByUsername(users + [row], row.username) == Some(row)
    decreases |users|
  {
    if |users| == 0 {
      assert users + [row] == [row];
    } else {
      assert users[0] in users;
      assert (users + [row])[1..] == users[1..] + [row];
      assert forall u :: u in users[1..] ==> u in users;
      FindAppendedFresh(users[1..], row);
    }
  }
}

=== FILE: utf8.dfy ===
/** `str.encode("utf-8")`: the bytes a password is hashed from. Each
    character becomes one to four bytes, and its first byte tells how many. */
module Utf8 {

  /** An octet. */
  newtype Byte = b: int | 0 <= b < 0x100

  /** The encoding of one character, by code point. */
  function EncodeChar(c: char): (b: seq<Byte>)
    ensures 1 <= |b| <= 4
    ensures |b| == SequenceLength(b[0])
  {
    var n := c as int;
    var q1, r1 := n / 0x40, n % 0x40;
    var q2, r2 := q1 / 0x40, q1 % 0x40;
    var q3, r3 := q2 / 0x40, q2 % 0x40;
    if n < 0x80 then [n as Byte]
    else if n < 0x800 then [(0xC0 + q1) as Byte, (0x80 + r1) as Byte]
    else if n < 0x1_0000 then [(0xE0 + q2) as Byte, (0x80 + r2) as Byte, (0x80 + r1) as Byte]
    else [(0xF0 + q3) as Byte, (0x80 + r3) as Byte, (0x80 + r2) as Byte, (0x80 + r1) as Byte]
  }

  /** How many bytes a sequence starting with `lead` occupies. */
  function SequenceLength(lead: Byte): nat {
    if lead < 0x80 then 1 else if lead < 0xE0 then 2 else if lead < 0xF0 then 3 else 4
  }

  /** The code point a well-formed byte sequence stands for. */
  function DecodeChar(b: seq<Byte>): int
    requires 1 <= |b| <= 4
  {
    var tail := if |b| == 1 then 0 else (b[|b| - 1] as int - 0x80);
    if |b| == 1 then b[0] as int
    else if |b| == 2 then (b[0] as int - 0xC0) * 0x40 + tail
    else if |b| == 3 then ((b[0] as int - 0xE0) * 0x40 + (b[1] as int - 0x80)) * 0x40 + tail
    else (((b[0] as int - 0xF0) * 0x40 + (b[1] as int - 0x80)) * 0x40 + (b[2] as int - 0x80)) * 0x40 + tail
  }

  /** Decoding recovers the character: the per-character encoding is injective. */
  lemma DecodeEncodeChar(c: char)
    ensures DecodeChar(EncodeChar(c)) == c as int
  {
    var n := c as int;
    var q1, r1 := n / 0x40, n % 0x40;
    var q2, r2 := q1 / 0x40, q1 % 0x40;
    var q3, r3 := q2 / 0x40, q2 % 0x40;
    assert n == q1 * 0x40 + r1;
    assert q1 == q2 * 0x40 + r2;
    assert q2 == q3 * 0x40 + r3;
  }

  /** `s.encode("utf-8")` */
  function Encode(s: string): (b: seq<Byte>)
    ensures |s| <= |b|
  {
    if |s| == 0 then [] else EncodeChar(s[0]) + Encode(s[1..])
  }

  lemma {:induction false} EncodeAppend(s: string, t: string)
    ensures Encode(s + t) == Encode(s) + Encode(t)
    decreases |s|
  {
    if |s| == 0 {
      assert s + t == t;
    } else {
      assert (s + t)[1..] == s[1..] + t;
      EncodeAppend(s[1..], t);
    }
  }

  /** A string of characters from U+0080 to U+07FF takes two bytes per character. */
  lemma {:induction false} EncodeTwoByteLength(s: string)
    requires forall i :: 0 <= i < |s| ==> 0x80 <= s[i] as int < 0x800
    ensures |Encode(s)| == 2 * |s|
    decreases |s|
  {
    if |s| != 0 {
      EncodeTwoByteLength(s[1..]);
    }
  }

  /** Different strings have different encodings. */
  lemma {:induction false} EncodeInjective(s: string, t: string)
    requires Encode(s) == Encode(t)
    ensures s == t
    decreases |s|
  {
    if |s| != 0 && |t| != 0 {
      var a, b := EncodeChar(s[0]), EncodeChar(t[0]);
      assert Encode(s) == a + Encode(s[1..]);
      assert Encode(t) == b + Encode(t[1..]);
      assert a[0] == Encode(s)[0] == b[0];
      assert a == Encode(s)[..|a|] == Encode(t)[..|b|] == b;
      DecodeEncodeChar(s[0]);
      DecodeEncodeChar(t[0]);
      assert Encode(s[1..]) == Encode(s)[|a|..] == Encode(t)[|b|..] == Encode(t[1..]);
      EncodeInjective(s[1..], t[1..]);
      assert s == [s[0]] + s[1..];
      assert t == [t[0]] + t[1..];
    }
  }
}
